=== FILE: README.md ===
# pxls client core, modelled in Dafny

This project models the core of a Rust client for a pxls canvas server. It covers:

- the client's buffer cache: board info, colours, initial colours, the placeability mask, reconstructed placement times and the canvas start time;
- the get-or-fetch accessors over that cache;
- the reconstruction of placement times from the heatmap and the virginmap;
- the incremental update of cached buffers as pixel changes arrive;
- one connection attempt: scheme mapping, handshake, cache reset, info fetch, frame dispatch and disconnect;
- the reconnect loop;
- the two hand-written serde visitors (hex colour, false-or-string);
- the inbound message tag table and the `UserUpdate` key fold.

Everything is sequential and pure. The network is an input value:

- `Server` holds the info document and the body served at each path.
- `Attempt` holds whether the websocket handshake succeeds and the events that follow on the socket.

Effects come out as a list of `Step`s: dial, clear the cache, set the connected flag, HTTP request, handler notification and sleep. Time is a whole number of seconds, passed in. The places where the Rust code panics rather than returning an error become preconditions, through the `…Defined` predicates.

Files:

- `basics.dfy`: `Option`, `Result`, the integer ranges of `u8`, `u32`, `usize` and `isize`.
- `json.dfy`: JSON values as serde hands them to a decoder, and the "each field exactly once, others ignored" rule of derived structs.
- `deserializers.dfy`: `deserialize_color_value` (with `u32::from_str_radix` in base 16) and `deserialize_false_or_string`.
- `messages.dfy`: `Pixel`, `AcknowledgeType`, the `Message` tag table, the `UserUpdate` fold, and message decoding.
- `cache.dfy`: `ClientCache`, buffer paths, `info`/`colors`/`initial_colors`/`mask`, `clear_cache`.
- `timestamps.dfy`: `timestamps`.
- `updates.dfy`: `update_buffers` and its application to a whole `pixel` message.
- `connection.dfy`: the builder, `connect`, frame dispatch and `start`.

Some behaviours of the code, and how the model treats them:

- Fetches are not tagged with a cache generation. Each accessor holds its slot's mutex across its fetch, and `clear_cache` takes every slot's mutex before emptying it, so a fetch in flight stores first and a reset then empties the slot.
- The same mutexes are taken in opposite orders. `timestamps` holds the timestamps mutex while it waits for the info mutex (src/client.rs:475, then 477 and 395). `clear_cache` takes the info mutex before the timestamps mutex (src/client.rs:554, 558). The two can deadlock. The model's accessors and reset are atomic, so it shows neither this deadlock nor any other interleaving.
- The code panics in several places instead of returning an error: an unreachable board info in `update_buffers`, an out-of-range pixel index, a placement before the canvas start, and a time that does not fit in `u32`. The model writes each of these as a `…Defined` precondition.
- `start` ignores every result of `connect`, so a site whose scheme is neither `http` nor `https` is retried forever (`Connection.StartRetriesBadScheme`).

## Model

| member | source | states |
|---|---|---|
| Cache.PathsDistinct | src/client.rs:348-366 | each buffer type is served from its own path, and no buffer path is the `info` endpoint |
| Cache.Clear | src/client.rs:553-566 | after a reset all six slots are empty and the cache invariant holds |
| Cache.Info | src/client.rs:394-420 | a cached info is returned with no request; otherwise exactly one `info` request; the slot is filled only on success and the cache is unchanged on error |
| Cache.BufferAccess | src/client.rs:436-467 | colours, initial colours and mask: a cached buffer is returned with no request; otherwise one request to the buffer's path; the slot is filled only on success; no other slot changes |
| Cache.BufferAccessStable | src/client.rs:436-445 | after a successful access, repeating it against any server returns the same buffer, requests nothing and changes nothing |
| Cache.InfoStable | src/client.rs:394-420 | after a successful info access, repeating it returns the same info with no request |
| Cache.ClearForcesRefetch | src/client.rs:553-566 | after a reset, every accessor requests its path again and answers with what the server now serves |
| Cache.AccessKeepsCoherent | src/client.rs:394-467 | the plain accessors preserve "timestamps cached implies start time cached" |
| Timestamps.Reconstruct | src/client.rs:501-513 | the output is as long as the shorter input; a virgin pixel gives 0 whatever its heat; any other pixel gives a time t with t + start = now − heat |
| Timestamps.TimestampsAccess | src/client.rs:469-519 | cached timestamps are returned with no request. Otherwise: an info error is returned with nothing changed; the start time is recorded once info is known, even if a fetch then fails, and a recorded start is never replaced; heatmap and virginmap are both requested; the slot is filled, with the reconstruction, exactly when both fetches succeed; the colour, initial and mask slots never change |
| Timestamps.FreshStartTimes | src/client.rs:482-513 | with a freshly inferred start, a non-virgin pixel's time is cooldown + 1 − heat, which is at least 1 whenever heat ≤ cooldown |
| Timestamps.FreshStartDefined | src/client.rs:486-507 | with a fresh start, heat at most cooldown + 1 and cooldown + 1 within `u32`, reconstruction cannot panic |
| Timestamps.TimestampsKeepCoherent | src/client.rs:469-519 | the timestamps accessor preserves "timestamps cached implies start time cached" |
| Timestamps.TimestampsStable | src/client.rs:469-519 | once computed, timestamps are served from the cache with no request, whatever the clock or server |
| Updates.UpdateBuffers | src/client.rs:521-551 | the colour is written at index y·width + x of the colour buffer, only if that buffer is cached; now − start is written at the same index of the timestamp buffer, only if that buffer is cached; lengths and all other indices are unchanged; initial, mask and start time are unchanged; the only request is the info lookup |
| Updates.UpdateTenByTen | src/client.rs:531-536 | on a 10-wide board, pixel (2, 3) lands at index 32 and its neighbours 31, 33 and 23 keep their values |
| Updates.ApplyPixels | src/client.rs:654-657 | applying a message's pixels in order keeps which slots exist, the buffer lengths, and the initial, mask and start-time slots |
| Updates.ApplyPixelsLastWins | src/client.rs:654-657 | after a message, each cached colour equals the colour of the last pixel at that index, or its old value if no pixel lands there; each cached timestamp hit by some pixel becomes the current stamp |
| Updates.ApplyPixelsKeepsCoherent | src/client.rs:521-551 | pixel updates preserve the cache invariant |
| Connection.Build | src/client.rs:60-70 | a missing site is reported before a missing handler; building succeeds exactly when both are given; the delay defaults to 60 s; a new client has an empty cache and is not connected |
| Connection.BuilderSetters | src/client.rs:44-70 | the order of the site and handler setters does not matter, the last reconnect delay given wins, the delay defaults to 60 s, and a builder with only a handler or only a site fails with the missing one |
| Connection.HandleFrame | src/client.rs:592-684 | a `pixel` message updates the cache with every pixel, then notifies once with the whole message; any other decoded message only notifies; undecodable text is passed on verbatim with the cache unchanged; the handler is notified exactly once per frame, as its last step |
| Connection.HandleFrameShape | src/client.rs:592-684 | a frame's effects are requests followed by exactly that frame's notification |
| Connection.PerformCall | src/client.rs:394-519 | an accessor called during a connection leaves exactly the cache that `info`, the buffer accessor or `timestamps` leaves, and its only effects are that accessor's requests, in order; it keeps the cache invariant and never drops anything already cached |
| Connection.Stream | src/client.rs:581-688 | reading the socket never touches the connected flag or settings; everything cached before it stays cached (info, initial colours, mask and start time unchanged, colour and timestamp buffers at their lengths); its effects are only requests and notifications, and the notifications are exactly one per frame, in arrival order |
| Connection.StreamSingle | src/client.rs:592-688 | a stream of one event is exactly that event's handling |
| Connection.StreamAppend | src/client.rs:592-688 | reading `a + b` is reading `a`, then `b` from the client `a` left, with the effects concatenated; together with `StreamSingle` and `HandleFrame` this carries each frame's cache update through a stream |
| Connection.StreamPixelFrame | src/client.rs:654-659 | a `pixel` frame read after a stream, whenever its pixels can be applied to the cache the stream left, can be handled, and the cache afterwards is exactly that cache with the message's pixels applied |
| Connection.WsScheme | src/client.rs:569-575 | a websocket scheme exists exactly for `http` and `https` |
| Connection.WsSchemeSecure | src/client.rs:571-573 | `wss` is chosen exactly for `https` and `ws` exactly for `http` |
| Connection.Connect | src/client.rs:568-694 | a bad scheme fails before any effect with the client unchanged; otherwise the first step is the dial; a failed dial leaves the client unchanged; after a good handshake the cache is cleared and only then the client is marked connected, and the result is `Ok(())` exactly when the info request succeeds and `InfoFailed` with the info error otherwise; the client stays connected (with an empty cache) exactly when info fails; a completed attempt ends by marking the client disconnected and then notifying the disconnect |
| Connection.ConnectShape | src/client.rs:577-691 | after a good handshake the effects are dial, clear, connect, info request, then (if info succeeds) ready, the stream's effects, disconnect flag, disconnect notification |
| Connection.ConnectClearsOnce | src/client.rs:577-584 | each attempt with a usable scheme dials exactly once; the cache is cleared exactly once if the handshake succeeds, else never |
| Connection.ConnectNotices | src/client.rs:588-691 | a completed attempt notifies ready, then one notification per frame in order, then disconnect; the client keeps the cache the stream left (no clearing on disconnect) |
| Connection.Start | src/client.rs:696-701 | the loop sleeps the reconnect delay exactly once per attempt, whatever the attempts returned; the settings never change; the cache invariant is kept |
| Connection.ConnectNeverSleeps | src/client.rs:568-694 | a connection attempt itself never sleeps, so the loop's only waits are those between attempts |
| Connection.StartRetriesBadScheme | src/client.rs:696-701 | with a scheme that has no websocket counterpart, the loop only sleeps, once per attempt, and never changes the client |
| Connection.StartDialsEveryAttempt | src/client.rs:696-701 | with a usable scheme, the number of dials equals the number of attempts |
| Deserializers.CheckedDigits | src/client.rs:104 | the checked digit loop succeeds exactly when every character is a hex digit and the unbounded reading fits in `u32`, and then it returns that reading |
| Deserializers.FromStrRadix16 | src/client.rs:104 | empty input fails; one leading `+` is skipped; the result is the digits' value when they are all hex and fit in `u32`, an error otherwise |
| Deserializers.TrimHashes | src/client.rs:103 | the result has no leading `#` and is the input with a run of `#` removed from the front |
| Deserializers.ColorValue | src/client.rs:101-111 | decoding succeeds exactly when, after removing leading `#` (and one `+`), the rest is non-empty hex below 2^32; the colour is the low 24 bits, so a high byte is dropped |
| Deserializers.LowBytesValue | src/client.rs:106-107 | the three bytes kept, read big-endian, are the value modulo 2^24 |
| Deserializers.DeserializeColorValue | src/client.rs:88-115 | only a JSON string can decode, and it decodes as the colour string does |
| Deserializers.ColorValueRoundTrip | src/client.rs:101-111 | `#rrggbb`, after any number of extra `#`, decodes to that colour |
| Deserializers.ColorValuePlusSign | src/client.rs:103-104 | `#+rrggbb` also decodes to the colour, while `#+` alone is rejected |
| Deserializers.FalseOrString | src/client.rs:162-174 | `false` gives no value, a string gives that string, `true` is the "Expected false" error, anything else is an error |
| Deserializers.FalseOrStringRoundTrip | src/client.rs:162-174 | writing an optional string as false-or-string and decoding it gives it back |
| Messages.TagSelectsKind | src/messages.rs:186-240 | every message variant is selected by its own tag |
| Messages.KindNamesTag | src/messages.rs:186-240 | any tag that selects a variant is that variant's tag |
| Messages.TagTable | src/messages.rs:186-240 | a tag selects a variant exactly when it is that variant's tag, so tags outside the table are rejected |
| Messages.RenamedTags | src/messages.rs:205-237 | `ACK` selects Acknowledge and `pixelCounts` selects PixelCounts, while their snake_case spellings select nothing |
| Messages.DecodeAckType | src/messages.rs:159-164 | an acknowledgement type decodes exactly from the names `PLACE` and `UNDO`, written as a bare string or as a single-key map with a null payload, and to the variant it names |
| Messages.AckTypeSpellings | src/messages.rs:159-164 | both spellings of each acknowledgement type decode to it, and a map with zero or several entries is rejected |
| Messages.DecodePixel | src/messages.rs:3-9 | a pixel decodes only from an object or a three-element array (any other array length is an `InvalidLength` error); decoded coordinates are `usize` values; from an object, `x`, `y` and `color` each occur exactly once and carry the decoded values |
| Messages.DecodePixelRoundTrip | src/messages.rs:3-9 | a pixel written as an object or as a three-element array decodes back to itself |
| Messages.DecodePixels | src/messages.rs:190 | a pixel list decodes exactly when every element does, keeping length and order |
| Messages.FoldUpdateLastWins | src/messages.rs:76-92 | the fold succeeds exactly when every value under `NameColor` or `DisplayedFaction` decodes; each field then comes from the last member with its key, or keeps its start value |
| Messages.DecodeUserUpdateAbsent | src/messages.rs:77-80 | an empty map gives both fields absent, and a key that never occurs leaves its field absent |
| Messages.DisplayedFactionNull | src/messages.rs:85 | an explicit null as the last faction value gives `Some(None)`, distinct from an absent key |
| Messages.UnknownKeyIgnored | src/messages.rs:86-87 | a member with any other key, first or last, changes nothing |
| Messages.DecodeBody | src/messages.rs:189-240 | a decoded body is always of the variant the tag selected, and carries its fields' contents: a `pixel` body decodes exactly when `pixels` is an array of decodable pixels, and then yields them all in order; `who` and the decoded `updates` map for `chat_user_update`; the acknowledged type and both coordinates for `ACK` |
| Messages.PixelMessageRoundTrip | src/messages.rs:186-190 | a `pixel` message carrying any list of pixels with word-sized coordinates decodes to exactly that list |
| Messages.ChatUserUpdateMessageOf | src/messages.rs:195 | a `chat_user_update` message decodes to its `who` and to whatever its `updates` map decodes to, failing with that map's error |
| Messages.AckMessageRoundTrip | src/messages.rs:205-207 | an `ACK` object with `ackFor`, `x` and `y` decodes to that acknowledgement |
| Messages.DecodeMessageTag | src/messages.rs:186-189 | in the object form, a message decodes only when it has exactly one `type` member, and that member names the decoded variant; a tag outside the table never decodes |

## Left out

- HTTP and websocket transport (`fetch_buffer`, `stats`, hyper, tokio-tungstenite): the responses, the handshake result and the socket's items are inputs. `Server` is fixed for the length of one attempt.
- Concurrency: mutexes, read-write locks, the lock orders in `update_buffers`, `timestamps` and `clear_cache` (including the deadlock noted above), `try_join!`, and the single-flight behaviour of the per-slot mutex. Application calls into the accessors during a connection are interleaved only between frames, as `ExternalCall` events.
- Timestamps.TimestampsAccess: when both the heatmap and the virginmap fetch fail, the heatmap's error is reported; the source reports whichever fails first.
- Timestamps.TimestampsAccess: `SystemTime` is whole seconds, so the truncation of sub-second durations is not modelled, and the clock is read once per call.
- Updates.ApplyPixels: every pixel of one message is stamped with the same time; the source reads the clock once per pixel.
- Updates.UpdateBuffers: `y * width + x` is required to fit in `usize`, which is the debug-build behaviour (an overflow panic); wrap-around in release builds is not modelled.
- Messages.DecodeBody: only the bodies of `pixel`, `ACK` and `chat_user_update` are decoded. Every other variant accepts any body, so the model accepts some messages the source rejects and routes to `handle_unknown`. Those payload structs hold floating-point, date and nested fields that this model does not represent.
- Messages.FoldUpdateLastWins: a faction value is accepted as any object or array; its `UserFaction` fields are not checked.
- Messages.DecodePixel: which error serde reports when several problems exist is not modelled; only success versus failure and the decoded value are.
- JSON text parsing, key unescaping and the difference between borrowed and owned map keys: a frame carries its text and, when the text is JSON, the parsed value.
- Decoding of `BoardInfo` and `Stats`, and `deserialize_stats_timestamp` (chrono and chrono-tz). The model keeps only width, height and heatmap cooldown of the info.
- `Url::join` and `set_scheme`: a site is reduced to its scheme. A base URL that cannot be joined (where the source panics) is not modelled.
- Frames that are not valid UTF-8 (where `into_text` panics), and ping/pong handling, which the source leaves as a TODO.
- The `EventHandler` callbacks: they appear only as notifications, and their own behaviour (the default no-ops) is not modelled.
- `start` runs forever. It is modelled over a finite list of attempts, and the sleep is only recorded as a step.
- `is_connected` is a read of the `connected` field of `Client`.
- HTTPS connector construction in `build`.
- Messages.DecodeMessageTag: only the object form of a message is modelled. An internally tagged enum also decodes from a JSON array whose first element is the tag and whose remaining elements are the variant's fields in order (for example `["users", 5]`); the model rejects that form.
- Messages.DecodeAckType: of the payloads a unit variant's single-key map may carry, only `null` is modelled; other encodings of the unit value that serde may accept there (such as an empty object) are rejected by the model.
- Cache.BufferAccess: accessor results are copies, not shared `Arc<RwLock<…>>` handles. In the source a caller holding a handle sees later in-place pixel writes, may write into the cached buffer itself, and keeps the old buffer after a reconnect replaces the slot; none of this aliasing is modelled.

=== FILE: basics.dfy ===
/** Failure-carrying datatypes and the fixed-width integer ranges the client works with.
    Integers in this model are unbounded; the ranges below stand for Rust's `u8`, `u32`,
    `usize`/`u64` and `isize`/`i64` on a 64-bit target. */
module Basics {

  datatype Option<+T> = None | Some(value: T)

  datatype Result<+T, +E> = Ok(value: T) | Err(error: E) {

    predicate IsFailure() {
      Err?
    }

    function PropagateFailure<U>(): Result<U, E>
      requires Err?
    {
      Err(error)
    }

    function Extract(): T
      requires Ok?
    {
      value
    }
  }

  const BYTE_LIMIT: int := 0x100
  const U32_LIMIT: int := 0x1_0000_0000
  const USIZE_LIMIT: int := 0x1_0000_0000_0000_0000
  const ISIZE_MIN: int := -0x8000_0000_0000_0000
  const ISIZE_LIMIT: int := 0x8000_0000_0000_0000

  /** Rust `u8`. */
  type byte = x: int | 0 <= x < 0x100

  /** Rust `u32`. */
  type u32 = x: int | 0 <= x < 0x1_0000_0000

  function Min(a: int, b: int): int
  {
    if a <= b then a else b
  }
}

=== FILE: cache.dfy ===
/** The client's buffer cache (`ClientCache` in src/client.rs) and its get-or-fetch
    accessors.

    The cache is a record of six optional slots. An accessor returns the slot when it is
    filled and otherwise asks the server, filling the slot only when the request succeeds.
    The HTTP layer is replaced by a `Server` value: the board info the `info` endpoint
    answers with, and the answer for every other path. Each accessor reports the paths it
    requested, so "no request when cached" is a statement about its result. */
module Cache {
  import opened Basics

  /** The part of `BoardInfo` the cache logic reads. */
  datatype BoardInfo = BoardInfo(width: nat, height: nat, heatmapCooldown: nat)

  /** `RequestError`: the request failed, the body could not be read, or it was not UTF-8
      text or not the expected JSON. */
  datatype RequestError = Http | Buffer | ParseUtf8 | ParseJson

  /** The binary board buffers the server exposes. */
  datatype BufferType = Colormap | Placemap | Heatmap | Virginmap | InitialColormap

  const INFO_PATH: string := "info"

  /** The path, relative to the site, each buffer is served from. */
  function PathOf(b: BufferType): string
  {
    match b
    case Colormap => "boarddata"
    case Placemap => "placemap"
    case Heatmap => "heatmap"
    case Virginmap => "virginmap"
    case InitialColormap => "initialboarddata"
  }

  /** Distinct buffers live at distinct paths, none of which is the info endpoint, so a
      request log names what was fetched unambiguously. */
  lemma PathsDistinct(a: BufferType, b: BufferType)
    ensures PathOf(a) == PathOf(b) <==> a == b
    ensures PathOf(a) != INFO_PATH
  {
  }

  /** What the server answers during one connection: the decoded info document (or why it
      could not be obtained) and the body served at each path. */
  datatype Server = Server(info: Result<BoardInfo, RequestError>, files: string -> Result<seq<byte>, RequestError>)

  function FetchBuffer(srv: Server, b: BufferType): Result<seq<byte>, RequestError>
  {
    srv.files(PathOf(b))
  }

  /** `ClientCache`: board info, the colour, initial-colour and placeability buffers, the
      reconstructed timestamps and the canvas start time (whole seconds). */
  datatype ClientCache = ClientCache(
    info: Option<BoardInfo>,
    colors: Option<seq<byte>>,
    initial: Option<seq<byte>>,
    mask: Option<seq<byte>>,
    timestamps: Option<seq<u32>>,
    createdAt: Option<int>)

  const Empty: ClientCache := ClientCache(None, None, None, None, None, None)

  /** The cache invariant: reconstructed timestamps are only ever stored once a canvas start
      time is known, which is what lets a pixel update stamp them. */
  predicate Coherent(c: ClientCache)
  {
    c.timestamps.Some? ==> c.createdAt.Some?
  }

  /** `d` still holds everything `c` held: the info, the initial colours, the mask and the
      start time are kept as they were, and the colour and timestamp buffers are kept at
      their lengths (their contents may be overwritten by pixel updates). */
  predicate Retains(c: ClientCache, d: ClientCache)
  {
    (c.info.Some? ==> d.info == c.info) &&
    (c.initial.Some? ==> d.initial == c.initial) &&
    (c.mask.Some? ==> d.mask == c.mask) &&
    (c.createdAt.Some? ==> d.createdAt == c.createdAt) &&
    (c.colors.Some? ==> d.colors.Some? && |d.colors.value| == |c.colors.value|) &&
    (c.timestamps.Some? ==> d.timestamps.Some? && |d.timestamps.value| == |c.timestamps.value|)
  }

  /** The outcome of an accessor: the cache afterwards, what the caller receives and the
      paths requested, in order. */
  datatype Access<T> = Access(cache: ClientCache, result: Result<T, RequestError>, requests: seq<string>)

  /** `clear_cache`: forget everything, so the next access of every slot refetches. */
  function Clear(c: ClientCache): (r: ClientCache)
    ensures r.info.None? && r.colors.None? && r.initial.None? && r.mask.None?
    ensures r.timestamps.None? && r.createdAt.None?
    ensures Coherent(r)
  {
    Empty
  }

  /** `info`: the cached board info, or the server's when none is cached. */
  function Info(c: ClientCache, srv: Server): (a: Access<BoardInfo>)
    ensures c.info.Some? ==> a.cache == c && a.result == Ok(c.info.value) && a.requests == []
    ensures c.info.None? ==> a.requests == [INFO_PATH] && a.result == srv.info
    ensures a.result.Ok? ==> a.cache == c.(info := Some(a.result.value))
    ensures a.result.Err? ==> a.cache == c
  {
    match c.info
    case Some(i) => Access(c, Ok(i), [])
    case None =>
      match srv.info
      case Ok(i) => Access(c.(info := Some(i)), Ok(i), [INFO_PATH])
      case Err(e) => Access(c, Err(e), [INFO_PATH])
  }

  /** The three byte-buffer slots with a plain get-or-fetch accessor. */
  datatype Slot = ColorsSlot | InitialSlot | MaskSlot

  /** The buffer each slot is filled from; the mask is the server's placemap. */
  function SourceOf(s: Slot): BufferType
  {
    match s
    case ColorsSlot => Colormap
    case InitialSlot => InitialColormap
    case MaskSlot => Placemap
  }

  function Get(c: ClientCache, s: Slot): Option<seq<byte>>
  {
    match s
    case ColorsSlot => c.colors
    case InitialSlot => c.initial
    case MaskSlot => c.mask
  }

  function Put(c: ClientCache, s: Slot, v: seq<byte>): ClientCache
  {
    match s
    case ColorsSlot => c.(colors := Some(v))
    case InitialSlot => c.(initial := Some(v))
    case MaskSlot => c.(mask := Some(v))
  }

  /** `d` agrees with `c` everywhere except possibly in slot `s`. */
  predicate OthersUnchanged(c: ClientCache, d: ClientCache, s: Slot)
  {
    d.info == c.info && d.timestamps == c.timestamps && d.createdAt == c.createdAt &&
    forall o: Slot :: o != s ==> Get(d, o) == Get(c, o)
  }

  /** `colors`, `initial_colors` and `mask`: return the cached buffer without any request;
      otherwise fetch it, store it and return it, or return the error and leave the slot
      empty. No other slot is touched either way. */
  function BufferAccess(c: ClientCache, srv: Server, s: Slot): (a: Access<seq<byte>>)
    ensures Get(c, s).Some? ==> a.cache == c && a.result == Ok(Get(c, s).value) && a.requests == []
    ensures Get(c, s).None? ==> a.requests == [PathOf(SourceOf(s))] && a.result == FetchBuffer(srv, SourceOf(s))
    ensures a.result.Ok? ==> Get(a.cache, s) == Some(a.result.value)
    ensures a.result.Err? ==> a.cache == c
    ensures OthersUnchanged(c, a.cache, s)
  {
    match Get(c, s)
    case Some(b) => Access(c, Ok(b), [])
    case None =>
      var path := PathOf(SourceOf(s));
      match srv.files(path)
      case Ok(b) => Access(Put(c, s, b), Ok(b), [path])
      case Err(e) => Access(c, Err(e), [path])
  }

  /** Once an access has succeeded, repeating it (against any server) answers the same
      value, requests nothing and leaves the cache as it is. */
  lemma BufferAccessStable(c: ClientCache, srv: Server, later: Server, s: Slot)
    requires BufferAccess(c, srv, s).result.Ok?
    ensures var a := BufferAccess(c, srv, s);
      BufferAccess(a.cache, later, s) == Access(a.cache, a.result, [])
  {
  }

  lemma InfoStable(c: ClientCache, srv: Server, later: Server)
    requires Info(c, srv).result.Ok?
    ensures var a := Info(c, srv);
      Info(a.cache, later) == Access(a.cache, a.result, [])
  {
  }

  /** After `clear_cache` every accessor goes back to the server, and so answers with
      whatever the server now serves. */
  lemma ClearForcesRefetch(c: ClientCache, srv: Server, s: Slot)
    ensures Info(Clear(c), srv).requests == [INFO_PATH]
    ensures Info(Clear(c), srv).result == srv.info
    ensures BufferAccess(Clear(c), srv, s).requests == [PathOf(SourceOf(s))]
    ensures BufferAccess(Clear(c), srv, s).result == FetchBuffer(srv, SourceOf(s))
  {
  }

  /** Accessing never breaks the cache invariant. */
  lemma AccessKeepsCoherent(c: ClientCache, srv: Server, s: Slot)
    requires Coherent(c)
    ensures Coherent(Info(c, srv).cache)
    ensures Coherent(BufferAccess(c, srv, s).cache)
  {
  }
}

=== FILE: connection.dfy ===
/** The client itself (`Client`, `ClientBuidler`, `connect` and `start` in src/client.rs):
    building it, one connection attempt, and the reconnect loop.

    Everything the client does to the outside world during an attempt is recorded as a
    sequence of `Step`s: dialling the websocket, clearing the cache, setting the connected
    flag, HTTP requests, notifications to the event handler and sleeps. The network is an
    `Attempt`: whether the websocket handshake succeeds, what the HTTP endpoints serve and
    what arrives on the socket. Calls the application makes into the client's accessors
    while a connection is live arrive in the same sequence as `ExternalCall` events. */
module Connection {
  import opened Basics
  import opened Json
  import opened Cache
  import opened Timestamps
  import opened Messages
  import opened Updates

  /** A site URL, split into its scheme and everything after it. */
  datatype Url = Url(scheme: string, rest: string)

  /** The registered event handler, known only by identity. */
  datatype Handler = Handler(id: nat)

  // ---------------------------------------------------------------------------------------
  // Building

  /** `ClientBuidler`: every setting optional; the reconnect delay in whole seconds. */
  datatype Builder = Builder(site: Option<Url>, handler: Option<Handler>, reconnectTime: Option<nat>)
  {
    function Site(u: Url): Builder
    {
      this.(site := Some(u))
    }

    function EventHandler(h: Handler): Builder
    {
      this.(handler := Some(h))
    }

    function ReconnectTime(t: nat): Builder
    {
      this.(reconnectTime := Some(t))
    }
  }

  const NewBuilder: Builder := Builder(None, None, None)

  datatype BuildError = MissingSite | MissingEventHandler

  const DEFAULT_RECONNECT_SECONDS: nat := 60

  /** A client: its settings, its cache and whether a websocket is currently open. */
  datatype Client = Client(site: Url, handler: Handler, reconnectTime: nat, cache: ClientCache, connected: bool)

  /** `build`: a site and a handler are required, the site being checked first; the delay
      defaults to a minute. A new client has an empty cache and is not connected. */
  function Build(b: Builder): (r: Result<Client, BuildError>)
    ensures r.Ok? <==> b.site.Some? && b.handler.Some?
    ensures b.site.None? ==> r == Err(MissingSite)
    ensures b.site.Some? && b.handler.None? ==> r == Err(MissingEventHandler)
    ensures r.Ok? ==> r.value.site == b.site.value && r.value.handler == b.handler.value
    ensures r.Ok? ==> r.value.cache == Empty && !r.value.connected
    ensures r.Ok? && b.reconnectTime.None? ==> r.value.reconnectTime == DEFAULT_RECONNECT_SECONDS
    ensures r.Ok? && b.reconnectTime.Some? ==> r.value.reconnectTime == b.reconnectTime.value
  {
    var site :- if b.site.Some? then Ok(b.site.value) else Err(MissingSite);
    var handler :- if b.handler.Some? then Ok(b.handler.value) else Err(MissingEventHandler);
    var delay := if b.reconnectTime.Some? then b.reconnectTime.value else DEFAULT_RECONNECT_SECONDS;
    Ok(Client(site, handler, delay, Empty, false))
  }

  /** The order of the setters does not matter, the last value given for a setting wins,
      and a builder given only a site and a handler waits a minute between attempts. */
  lemma BuilderSetters(u: Url, h: Handler, t: nat, t': nat)
    ensures Build(NewBuilder.Site(u).EventHandler(h)) == Build(NewBuilder.EventHandler(h).Site(u))
    ensures Build(NewBuilder.Site(u).EventHandler(h)) == Ok(Client(u, h, DEFAULT_RECONNECT_SECONDS, Empty, false))
    ensures Build(NewBuilder.ReconnectTime(t).Site(u).EventHandler(h).ReconnectTime(t')) == Ok(Client(u, h, t', Empty, false))
    ensures Build(NewBuilder.EventHandler(h)) == Err(MissingSite)
    ensures Build(NewBuilder.Site(u)) == Err(MissingEventHandler)
  {
  }

  // ---------------------------------------------------------------------------------------
  // Effects and inputs

  /** `ConnectError`. */
  datatype ConnectError = InvalidSiteScheme(scheme: string) | WebsocketConnectFailed | InfoFailed(error: RequestError)

  /** The event handler callbacks, by kind: ready, disconnect, the callback for a decoded
      message (carrying the message), and the one for text that did not decode. */
  datatype Notification = Ready | Disconnect | Dispatched(message: Message) | Unknown(text: string)

  /** An effect on the outside world, in the order it happens. */
  datatype Step =
    | Dial(scheme: string)
    | ClearCache
    | SetConnected(on: bool)
    | Request(path: string)
    | Notify(notification: Notification)
    | Sleep(seconds: nat)

  /** A websocket text frame: its text and, when the text is JSON at all, the JSON value. */
  datatype Frame = Frame(text: string, json: Option<JValue>)

  /** An accessor the application calls while the connection is live. */
  datatype Call = InfoCall | BufferCall(slot: Slot) | TimestampsCall

  /** What happens next while a connection is open: a frame arrives at time `at`, the socket
      reports an error for one item, or the application calls an accessor at time `at`. */
  datatype Event = Received(frame: Frame, at: int) | ReceiveFailed | ExternalCall(call: Call, at: int)

  /** One connection attempt's world: the HTTP endpoints, whether the websocket handshake
      succeeds, and what follows on the socket until it closes. */
  datatype Attempt = Attempt(server: Server, dialOk: bool, events: seq<Event>)

  /** The client and the effects so far. */
  datatype Run = Run(client: Client, steps: seq<Step>)

  function Requests(paths: seq<string>): (steps: seq<Step>)
    ensures |steps| == |paths|
    ensures forall i :: 0 <= i < |steps| ==> steps[i] == Request(paths[i])
  {
    if |paths| == 0 then [] else [Request(paths[0])] + Requests(paths[1..])
  }

  /** The notifications among some steps, in order. */
  function Notices(steps: seq<Step>): seq<Notification>
  {
    if |steps| == 0 then []
    else if steps[0].Notify? then [steps[0].notification] + Notices(steps[1..])
    else Notices(steps[1..])
  }

  lemma {:induction false} NoticesAppend(a: seq<Step>, b: seq<Step>)
    ensures Notices(a + b) == Notices(a) + Notices(b)
  {
    if |a| > 0 {
      assert (a + b)[1..] == a[1..] + b;
      NoticesAppend(a[1..], b);
    } else {
      assert a + b == b;
    }
  }

  lemma {:induction false} RequestsNoNotices(paths: seq<string>)
    ensures Notices(Requests(paths)) == []
  {
    if |paths| > 0 {
      NoticesAppend([Request(paths[0])], Requests(paths[1..]));
      RequestsNoNotices(paths[1..]);
    }
  }

  /** How many times a step occurs. */
  function Count(steps: seq<Step>, s: Step): nat
  {
    if |steps| == 0 then 0
    else (if steps[0] == s then 1 else 0) + Count(steps[1..], s)
  }

  lemma {:induction false} CountAppend(a: seq<Step>, b: seq<Step>, s: Step)
    ensures Count(a + b, s) == Count(a, s) + Count(b, s)
  {
    if |a| > 0 {
      assert (a + b)[1..] == a[1..] + b;
      CountAppend(a[1..], b, s);
    } else {
      assert a + b == b;
    }
  }

  lemma {:induction false} CountAbsent(steps: seq<Step>, s: Step)
    requires s !in steps
    ensures Count(steps, s) == 0
  {
    if |steps| > 0 {
      assert forall t :: t in steps[1..] ==> t in steps;
      CountAbsent(steps[1..], s);
    }
  }

  // ---------------------------------------------------------------------------------------
  // Dispatching frames

  /** `serde_json::from_str::<Message>` on a frame's text. */
  function DecodeFrame(f: Frame): Result<Message, DecodeError>
  {
    if f.json.None? then Err(Syntax) else DecodeMessage(f.json.value)
  }

  /** The callback a frame is routed to: the decoded message's, or the unknown-message one
      with the frame's text unchanged. */
  function FrameNotice(f: Frame): Notification
  {
    match DecodeFrame(f)
    case Ok(m) => Dispatched(m)
    case Err(_) => Unknown(f.text)
  }

  /** The notifications the frames among some events call for, in order. */
  function FrameNotices(evs: seq<Event>): seq<Notification>
  {
    if |evs| == 0 then []
    else if evs[0].Received? then [FrameNotice(evs[0].frame)] + FrameNotices(evs[1..])
    else FrameNotices(evs[1..])
  }

  /** Where handling a frame does not panic: the pixels of a `pixel` message can all be
      applied to the cache. */
  predicate FrameDefined(c: ClientCache, srv: Server, f: Frame, at: int)
  {
    var d := DecodeFrame(f);
    d.Ok? && d.value.PixelMessage? ==> PixelsDefined(c, srv, d.value.pixels, at)
  }

  /** The body of the `for_each` in `connect`: a `pixel` message first updates the cached
      buffers, pixel by pixel, and then notifies the handler once with every pixel; any
      other message only notifies; text that does not decode is handed over verbatim. */
  function HandleFrame(cl: Client, srv: Server, f: Frame, at: int): (r: Run)
    requires FrameDefined(cl.cache, srv, f, at)
    ensures r.client.(cache := cl.cache) == cl
    ensures |r.steps| > 0 && r.steps[|r.steps| - 1] == Notify(FrameNotice(f))
    ensures forall i :: 0 <= i < |r.steps| - 1 ==> r.steps[i].Request?
    ensures DecodeFrame(f).Err? ==> r == Run(cl, [Notify(Unknown(f.text))])
    ensures DecodeFrame(f).Ok? && !DecodeFrame(f).value.PixelMessage? ==> r == Run(cl, [Notify(Dispatched(DecodeFrame(f).value))])
    ensures DecodeFrame(f).Ok? && DecodeFrame(f).value.PixelMessage? ==>
              r.client.cache == ApplyPixels(cl.cache, srv, DecodeFrame(f).value.pixels, at).cache
    ensures Retains(cl.cache, r.client.cache)
  {
    match DecodeFrame(f)
    case Err(_) => Run(cl, [Notify(Unknown(f.text))])
    case Ok(m) =>
      if m.PixelMessage? then
        var ap := ApplyPixels(cl.cache, srv, m.pixels, at);
        Run(cl.(cache := ap.cache), Requests(ap.requests) + [Notify(Dispatched(m))])
      else Run(cl, [Notify(Dispatched(m))])
  }

  /** Where an accessor call does not panic. */
  predicate CallDefined(c: ClientCache, srv: Server, call: Call, at: int)
  {
    call.TimestampsCall? ==> TimestampsDefined(c, srv, at)
  }

  /** An accessor called by the application: its requests are the only effects, and the
      answer goes back to the caller, outside this model. */
  function PerformCall(cl: Client, srv: Server, call: Call, at: int): (r: Run)
    requires CallDefined(cl.cache, srv, call, at)
    ensures r.client.(cache := cl.cache) == cl
    ensures forall s :: s in r.steps ==> s.Request?
    ensures call.InfoCall? ==>
              r.client.cache == Info(cl.cache, srv).cache && r.steps == Requests(Info(cl.cache, srv).requests)
    ensures call.BufferCall? ==>
              r.client.cache == BufferAccess(cl.cache, srv, call.slot).cache &&
              r.steps == Requests(BufferAccess(cl.cache, srv, call.slot).requests)
    ensures call.TimestampsCall? ==>
              r.client.cache == TimestampsAccess(cl.cache, srv, at).cache &&
              r.steps == Requests(TimestampsAccess(cl.cache, srv, at).requests)
    ensures Coherent(cl.cache) ==> Coherent(r.client.cache)
    ensures Retains(cl.cache, r.client.cache)
  {
    match call
    case InfoCall =>
      var a := Info(cl.cache, srv);
      Run(cl.(cache := a.cache), Requests(a.requests))
    case BufferCall(slot) =>
      var a := BufferAccess(cl.cache, srv, slot);
      Run(cl.(cache := a.cache), Requests(a.requests))
    case TimestampsCall =>
      var a := TimestampsAccess(cl.cache, srv, at);
      Run(cl.(cache := a.cache), Requests(a.requests))
  }

  predicate EventDefined(cl: Client, srv: Server, e: Event)
  {
    match e
    case Received(f, at) => FrameDefined(cl.cache, srv, f, at)
    case ReceiveFailed => true
    case ExternalCall(call, at) => CallDefined(cl.cache, srv, call, at)
  }

  /** One event; a socket error is skipped without any effect. */
  function HandleEvent(cl: Client, srv: Server, e: Event): Run
    requires EventDefined(cl, srv, e)
  {
    match e
    case Received(f, at) => HandleFrame(cl, srv, f, at)
    case ReceiveFailed => Run(cl, [])
    case ExternalCall(call, at) => PerformCall(cl, srv, call, at)
  }

  /** Where a whole stream of events can be handled without a panic. */
  predicate StreamDefined(cl: Client, srv: Server, evs: seq<Event>)
  {
    Replayable(cl, evs, Admits(srv), Handling(srv))
  }

  /** Every event, met in the client the previous ones leave, satisfies `ok`. */
  predicate Replayable(cl: Client, evs: seq<Event>, ok: (Client, Event) -> bool, handle: (Client, Event) -> Run)
    decreases |evs|
  {
    |evs| > 0 ==> ok(cl, evs[0]) && Replayable(handle(cl, evs[0]).client, evs[1..], ok, handle)
  }

  function Admits(srv: Server): (Client, Event) -> bool
  {
    (cl: Client, e: Event) => EventDefined(cl, srv, e)
  }

  /** Event handling as a total function: an event outside its definedness condition
      (which a stream satisfying `StreamDefined` never presents) has no effect. */
  function Handling(srv: Server): (Client, Event) -> Run
  {
    (cl: Client, e: Event) => if EventDefined(cl, srv, e) then HandleEvent(cl, srv, e) else Run(cl, [])
  }

  /** Events handled one after the other by `handle`, each from the client the previous
      one left, with their effects in order. */
  function Replay(cl: Client, evs: seq<Event>, handle: (Client, Event) -> Run): Run
    decreases |evs|
  {
    if |evs| == 0 then Run(cl, [])
    else
      var head := handle(cl, evs[0]);
      var tail := Replay(head.client, evs[1..], handle);
      Run(tail.client, head.steps + tail.steps)
  }

  /** Reading the socket until it closes. The stream never touches the connection flag or
      the settings, never clears the cache (whatever was cached stays cached, buffers at
      their lengths), and notifies the handler exactly once per frame, in arrival order. */
  function Stream(cl: Client, srv: Server, evs: seq<Event>): (r: Run)
    requires StreamDefined(cl, srv, evs)
    ensures r.client.(cache := cl.cache) == cl
    ensures forall s :: s in r.steps ==> s.Request? || s.Notify?
    ensures Notices(r.steps) == FrameNotices(evs)
    ensures Coherent(cl.cache) ==> Coherent(r.client.cache)
    ensures Retains(cl.cache, r.client.cache)
  {
    ReplayShape(cl, srv, evs);
    Replay(cl, evs, Handling(srv))
  }

  lemma {:induction false} ReplayShape(cl: Client, srv: Server, evs: seq<Event>)
    requires StreamDefined(cl, srv, evs)
    ensures var r := Replay(cl, evs, Handling(srv));
            r.client.(cache := cl.cache) == cl &&
            (forall s :: s in r.steps ==> s.Request? || s.Notify?) &&
            Notices(r.steps) == FrameNotices(evs) &&
            (Coherent(cl.cache) ==> Coherent(r.client.cache)) &&
            Retains(cl.cache, r.client.cache)
    decreases |evs|
  {
    if |evs| > 0 {
      var head := HandleEvent(cl, srv, evs[0]);
      assert Handling(srv)(cl, evs[0]) == head;
      var tail := Replay(head.client, evs[1..], Handling(srv));
      HandleEventShape(cl, srv, evs[0]);
      ReplayShape(head.client, srv, evs[1..]);
      NoticesAppend(head.steps, tail.steps);
    }
  }

  lemma HandleEventShape(cl: Client, srv: Server, e: Event)
    requires EventDefined(cl, srv, e)
    ensures var r := HandleEvent(cl, srv, e);
            r.client.(cache := cl.cache) == cl &&
            (forall s :: s in r.steps ==> s.Request? || s.Notify?) &&
            Notices(r.steps) == (if e.Received? then [FrameNotice(e.frame)] else []) &&
            (Coherent(cl.cache) ==> Coherent(r.client.cache)) &&
            Retains(cl.cache, r.client.cache)
  {
    match e
    case Received(f, at) => HandleFrameShape(cl, srv, f, at);
    case ReceiveFailed =>
    case ExternalCall(call, at) => NoRequestNotices(PerformCall(cl, srv, call, at).steps);
  }

  lemma HandleFrameShape(cl: Client, srv: Server, f: Frame, at: int)
    requires FrameDefined(cl.cache, srv, f, at)
    ensures var r := HandleFrame(cl, srv, f, at);
            (forall s :: s in r.steps ==> s.Request? || s.Notify?) &&
            Notices(r.steps) == [FrameNotice(f)] &&
            (Coherent(cl.cache) ==> Coherent(r.client.cache))
  {
    var r := HandleFrame(cl, srv, f, at);
    RequestsThenNotice(r.steps, FrameNotice(f));
    if Coherent(cl.cache) {
      HandleFrameKeepsCoherent(cl, srv, f, at);
    }
  }

  lemma HandleFrameKeepsCoherent(cl: Client, srv: Server, f: Frame, at: int)
    requires FrameDefined(cl.cache, srv, f, at)
    requires Coherent(cl.cache)
    ensures Coherent(HandleFrame(cl, srv, f, at).client.cache)
  {
    var d := DecodeFrame(f);
    if d.Ok? && d.value.PixelMessage? {
      ApplyPixelsKeepsCoherent(cl.cache, srv, d.value.pixels, at);
    }
  }

  lemma RequestsThenNotice(steps: seq<Step>, n: Notification)
    requires |steps| > 0 && steps[|steps| - 1] == Notify(n)
    requires forall i :: 0 <= i < |steps| - 1 ==> steps[i].Request?
    ensures forall s :: s in steps ==> s.Request? || s.Notify?
    ensures Notices(steps) == [n]
  {
    var front := steps[..|steps| - 1];
    assert steps == front + [Notify(n)];
    NoticesAppend(front, [Notify(n)]);
    NoRequestNotices(front);
  }

  lemma {:induction false} NoRequestNotices(steps: seq<Step>)
    requires forall s :: s in steps ==> s.Request?
    ensures Notices(steps) == []
  {
    if |steps| > 0 {
      assert steps[0] in steps;
      assert forall s :: s in steps[1..] ==> s in steps;
      NoRequestNotices(steps[1..]);
    }
  }

  /** A stream of one event is that event's handling. */
  lemma StreamSingle(cl: Client, srv: Server, e: Event)
    requires EventDefined(cl, srv, e)
    ensures StreamDefined(cl, srv, [e])
    ensures Stream(cl, srv, [e]) == HandleEvent(cl, srv, e)
  {
    var head := HandleEvent(cl, srv, e);
    assert Handling(srv)(cl, e) == head;
    assert [e][1..] == [];
    assert Replay(head.client, [], Handling(srv)) == Run(head.client, []);
    assert Replay(cl, [e], Handling(srv)) == Run(head.client, head.steps + []);
    assert head.steps + [] == head.steps;
  }

  /** Reading `a` and then `b` is reading `a + b`: the second part starts from the client
      the first part leaves, and the effects follow each other. With `StreamSingle` and
      `HandleFrame` this carries every frame's cache update through a whole stream. */
  lemma StreamAppend(cl: Client, srv: Server, a: seq<Event>, b: seq<Event>)
    requires StreamDefined(cl, srv, a + b)
    ensures StreamDefined(cl, srv, a)
    ensures StreamDefined(Stream(cl, srv, a).client, srv, b)
    ensures var first := Stream(cl, srv, a);
            var second := Stream(first.client, srv, b);
            Stream(cl, srv, a + b) == Run(second.client, first.steps + second.steps)
  {
    ReplayableAppend(cl, a, b, Admits(srv), Handling(srv));
    ReplayAppend(cl, a, b, Handling(srv));
  }

  /** A `pixel` frame after a stream has its pixels written into the cache the stream left:
      whenever those pixels can be applied there, the longer stream can be read and ends
      with exactly that update. */
  lemma StreamPixelFrame(cl: Client, srv: Server, a: seq<Event>, f: Frame, at: int)
    requires StreamDefined(cl, srv, a)
    requires DecodeFrame(f).Ok? && DecodeFrame(f).value.PixelMessage?
    requires PixelsDefined(Stream(cl, srv, a).client.cache, srv, DecodeFrame(f).value.pixels, at)
    ensures StreamDefined(cl, srv, a + [Received(f, at)])
    ensures var before := Stream(cl, srv, a).client.cache;
            Stream(cl, srv, a + [Received(f, at)]).client.cache ==
              ApplyPixels(before, srv, DecodeFrame(f).value.pixels, at).cache
  {
    var mid := Stream(cl, srv, a).client;
    assert EventDefined(mid, srv, Received(f, at));
    StreamSingle(mid, srv, Received(f, at));
    ReplayableAppend(cl, a, [Received(f, at)], Admits(srv), Handling(srv));
    StreamAppend(cl, srv, a, [Received(f, at)]);
  }

  /** Events can be replayed as a whole exactly when they can be replayed in two parts. */
  lemma {:induction false} ReplayableAppend(cl: Client, a: seq<Event>, b: seq<Event>,
                                            ok: (Client, Event) -> bool, handle: (Client, Event) -> Run)
    ensures Replayable(cl, a + b, ok, handle) <==>
              Replayable(cl, a, ok, handle) && Replayable(Replay(cl, a, handle).client, b, ok, handle)
    decreases |a|
  {
    if |a| == 0 {
      assert a + b == b;
    } else {
      assert (a + b)[0] == a[0];
      assert (a + b)[1..] == a[1..] + b;
      ReplayableAppend(handle(cl, a[0]).client, a[1..], b, ok, handle);
    }
  }

  /** Replaying `a + b` is replaying `a` and then `b`, for any handler. */
  lemma {:induction false} ReplayAppend(cl: Client, a: seq<Event>, b: seq<Event>, handle: (Client, Event) -> Run)
    ensures var first := Replay(cl, a, handle);
            var second := Replay(first.client, b, handle);
            Replay(cl, a + b, handle) == Run(second.client, first.steps + second.steps)
    decreases |a|
  {
    if |a| == 0 {
      assert a + b == b;
      assert [] + Replay(cl, b, handle).steps == Replay(cl, b, handle).steps;
    } else {
      assert (a + b)[0] == a[0];
      assert (a + b)[1..] == a[1..] + b;
      var head := handle(cl, a[0]);
      ReplayAppend(head.client, a[1..], b, handle);
      var mid := Replay(head.client, a[1..], handle);
      var rest := Replay(mid.client, b, handle);
      assert head.steps + (mid.steps + rest.steps) == (head.steps + mid.steps) + rest.steps;
    }
  }

  // ---------------------------------------------------------------------------------------
  // One attempt

  /** The websocket scheme for a site scheme: plain for `http`, secure for `https`, none for
      anything else. */
  function WsScheme(scheme: string): (ws: Option<string>)
    ensures ws.Some? <==> scheme == "http" || scheme == "https"
  {
    if scheme == "http" then Some("ws")
    else if scheme == "https" then Some("wss")
    else None
  }

  /** The secure websocket scheme is chosen exactly for a secure site. */
  lemma WsSchemeSecure(scheme: string)
    ensures WsScheme(scheme) == Some("wss") <==> scheme == "https"
    ensures WsScheme(scheme) == Some("ws") <==> scheme == "http"
  {
  }

  /** The result of `connect`, with the client and effects it leaves behind. */
  datatype Outcome = Outcome(client: Client, steps: seq<Step>, result: Result<(), ConnectError>)

  /** The client right after a successful handshake: cache cleared, marked connected. */
  function Opened(cl: Client): Client
  {
    cl.(cache := Clear(cl.cache), connected := true)
  }

  /** Where `connect` does not panic: the stream that follows a successful handshake and
      info request can be handled. */
  predicate ConnectDefined(cl: Client, at: Attempt)
  {
    var ia := Info(Empty, at.server);
    (WsScheme(cl.site.scheme).Some? && at.dialOk && ia.result.Ok?) ==>
      StreamDefined(Opened(cl).(cache := ia.cache), at.server, at.events)
  }

  /** `connect`: pick the websocket scheme, dial, clear the cache and mark the client
      connected, fetch the info, report readiness, handle the stream until it closes, then
      mark the client disconnected and report the disconnect. */
  function Connect(cl: Client, at: Attempt): (o: Outcome)
    requires ConnectDefined(cl, at)
    ensures o.client.site == cl.site && o.client.handler == cl.handler && o.client.reconnectTime == cl.reconnectTime
    ensures WsScheme(cl.site.scheme).None? ==> o == Outcome(cl, [], Err(InvalidSiteScheme(cl.site.scheme)))
    ensures WsScheme(cl.site.scheme).Some? ==> |o.steps| > 0 && o.steps[0] == Dial(WsScheme(cl.site.scheme).value)
    ensures WsScheme(cl.site.scheme).Some? && !at.dialOk ==> o == Outcome(cl, o.steps, Err(WebsocketConnectFailed)) && |o.steps| == 1
    ensures WsScheme(cl.site.scheme).Some? && at.dialOk ==>
              |o.steps| >= 3 && o.steps[1] == ClearCache && o.steps[2] == SetConnected(true)
    ensures WsScheme(cl.site.scheme).Some? && at.dialOk ==>
              var ia := Info(Empty, at.server);
              o.result == (if ia.result.Ok? then Ok(()) else Err(InfoFailed(ia.result.error))) &&
              o.client.connected == ia.result.Err?
    ensures o.result.Err? && o.result.error.InfoFailed? ==>
              o.client.connected && o.client.cache == Empty && o.steps[|o.steps| - 1] == Request(INFO_PATH)
    ensures o.result.Ok? ==>
              !o.client.connected && |o.steps| >= 2 &&
              o.steps[|o.steps| - 2] == SetConnected(false) && o.steps[|o.steps| - 1] == Notify(Disconnect)
    ensures Coherent(cl.cache) ==> Coherent(o.client.cache)
  {
    match WsScheme(cl.site.scheme)
    case None => Outcome(cl, [], Err(InvalidSiteScheme(cl.site.scheme)))
    case Some(ws) =>
      if !at.dialOk then Outcome(cl, [Dial(ws)], Err(WebsocketConnectFailed))
      else
        var live := Opened(cl);
        var ia := Info(live.cache, at.server);
        var opening := [Dial(ws), ClearCache, SetConnected(true)] + Requests(ia.requests);
        match ia.result
        case Err(e) => Outcome(live, opening, Err(InfoFailed(e)))
        case Ok(_) =>
          var run := Stream(live.(cache := ia.cache), at.server, at.events);
          Outcome(run.client.(connected := false),
                  opening + [Notify(Ready)] + run.steps + [SetConnected(false), Notify(Disconnect)],
                  Ok(()))
  }

  /** The first effects of an attempt whose handshake succeeded. */
  function OpeningSteps(ws: string, requests: seq<string>): seq<Step>
  {
    [Dial(ws), ClearCache, SetConnected(true)] + Requests(requests)
  }

  const ClosingSteps: seq<Step> := [SetConnected(false), Notify(Disconnect)]

  /** The effects of an attempt whose handshake succeeded, in order. */
  lemma ConnectShape(cl: Client, at: Attempt)
    requires ConnectDefined(cl, at)
    requires WsScheme(cl.site.scheme).Some? && at.dialOk
    ensures var ia := Info(Empty, at.server);
            var opening := OpeningSteps(WsScheme(cl.site.scheme).value, ia.requests);
            (ia.result.Err? ==> Connect(cl, at).steps == opening) &&
            (ia.result.Ok? ==>
              Connect(cl, at).steps ==
                opening + [Notify(Ready)] + Stream(Opened(cl).(cache := ia.cache), at.server, at.events).steps + ClosingSteps)
  {
  }

  lemma OpeningCounts(ws: string, requests: seq<string>)
    ensures Count(OpeningSteps(ws, requests), Dial(ws)) == 1
    ensures Count(OpeningSteps(ws, requests), ClearCache) == 1
    ensures Notices(OpeningSteps(ws, requests)) == []
  {
    var s := [Dial(ws), ClearCache, SetConnected(true)];
    var t := [ClearCache, SetConnected(true)];
    var u := [SetConnected(true)];
    assert s[1..] == t && t[1..] == u && u[1..] == [];
    assert Count(u, Dial(ws)) == 0 && Count(u, ClearCache) == 0 && Notices(u) == [];
    assert Count(t, Dial(ws)) == 0 && Count(t, ClearCache) == 1 && Notices(t) == [];
    CountAbsent(Requests(requests), Dial(ws));
    CountAbsent(Requests(requests), ClearCache);
    CountAppend(s, Requests(requests), Dial(ws));
    CountAppend(s, Requests(requests), ClearCache);
    RequestsNoNotices(requests);
    NoticesAppend(s, Requests(requests));
  }

  /** The counts and notifications of a completed attempt, given that its stream only
      requests and notifies. */
  lemma CompletedCounts(ws: string, requests: seq<string>, mid: seq<Step>)
    requires forall s :: s in mid ==> s.Request? || s.Notify?
    ensures var all := OpeningSteps(ws, requests) + [Notify(Ready)] + mid + ClosingSteps;
            Count(all, Dial(ws)) == 1 && Count(all, ClearCache) == 1 &&
            Notices(all) == [Ready] + Notices(mid) + [Disconnect]
  {
    var opening := OpeningSteps(ws, requests);
    OpeningCounts(ws, requests);
    CountAbsent(mid, Dial(ws));
    CountAbsent(mid, ClearCache);
    CountAbsent(ClosingSteps, Dial(ws));
    CountAbsent(ClosingSteps, ClearCache);
    assert ClosingSteps[1..] == [Notify(Disconnect)] && ClosingSteps[1..][1..] == [];
    assert Notices(ClosingSteps[1..]) == [Disconnect];
    assert Notices(ClosingSteps) == [Disconnect];
    assert Notices([Notify(Ready)]) == [Ready];
    CountAppend(opening, [Notify(Ready)], Dial(ws));
    CountAppend(opening, [Notify(Ready)], ClearCache);
    NoticesAppend(opening, [Notify(Ready)]);
    CountAppend(opening + [Notify(Ready)], mid, Dial(ws));
    CountAppend(opening + [Notify(Ready)], mid, ClearCache);
    NoticesAppend(opening + [Notify(Ready)], mid);
    CountAppend(opening + [Notify(Ready)] + mid, ClosingSteps, Dial(ws));
    CountAppend(opening + [Notify(Ready)] + mid, ClosingSteps, ClearCache);
    NoticesAppend(opening + [Notify(Ready)] + mid, ClosingSteps);
  }

  /** Dial once, clear once: the cache is cleared only after a successful handshake, right
      before the client is marked connected, and never again in the same attempt, so a
      closing stream leaves the cached data in place. */
  lemma ConnectClearsOnce(cl: Client, at: Attempt)
    requires ConnectDefined(cl, at)
    ensures WsScheme(cl.site.scheme).Some? ==> Count(Connect(cl, at).steps, Dial(WsScheme(cl.site.scheme).value)) == 1
    ensures Count(Connect(cl, at).steps, ClearCache) == (if WsScheme(cl.site.scheme).Some? && at.dialOk then 1 else 0)
  {
    var ws := WsScheme(cl.site.scheme);
    if ws.Some? && at.dialOk {
      var ia := Info(Empty, at.server);
      ConnectShape(cl, at);
      if ia.result.Ok? {
        CompletedCounts(ws.value, ia.requests, Stream(Opened(cl).(cache := ia.cache), at.server, at.events).steps);
      } else {
        OpeningCounts(ws.value, ia.requests);
      }
    } else if ws.Some? {
      assert Connect(cl, at).steps == [Dial(ws.value)];
    }
  }

  /** A completed attempt reports readiness, then one notification per frame in arrival
      order, then the disconnect; the client keeps the cache the stream left it with. */
  lemma ConnectNotices(cl: Client, at: Attempt)
    requires ConnectDefined(cl, at)
    requires Connect(cl, at).result.Ok?
    ensures var ia := Info(Empty, at.server);
            var o := Connect(cl, at);
            Notices(o.steps) == [Ready] + FrameNotices(at.events) + [Disconnect] &&
            o.client.cache == Stream(Opened(cl).(cache := ia.cache), at.server, at.events).client.cache
  {
    var ia := Info(Empty, at.server);
    ConnectShape(cl, at);
    CompletedCounts(WsScheme(cl.site.scheme).value, ia.requests,
                    Stream(Opened(cl).(cache := ia.cache), at.server, at.events).steps);
  }

  /** An attempt never waits: the only sleep of the reconnect loop is the one between
      attempts. */
  lemma ConnectNeverSleeps(cl: Client, at: Attempt)
    requires ConnectDefined(cl, at)
    ensures forall s :: s in Connect(cl, at).steps ==> !s.Sleep?
  {
    var ws := WsScheme(cl.site.scheme);
    if ws.Some? && at.dialOk {
      var ia := Info(Empty, at.server);
      var opening := OpeningSteps(ws.value, ia.requests);
      ConnectShape(cl, at);
      assert forall s :: s in Requests(ia.requests) ==> s.Request?;
      assert forall s :: s in opening ==> !s.Sleep?;
      if ia.result.Ok? {
        var mid := Stream(Opened(cl).(cache := ia.cache), at.server, at.events).steps;
        assert forall s :: s in mid ==> !s.Sleep?;
        assert forall s :: s in [Notify(Ready)] + ClosingSteps ==> !s.Sleep?;
        assert Connect(cl, at).steps == opening + [Notify(Ready)] + mid + ClosingSteps;
      }
    }
  }

  // ---------------------------------------------------------------------------------------
  // Reconnecting

  predicate StartDefined(cl: Client, attempts: seq<Attempt>)
    decreases |attempts|
  {
    |attempts| > 0 ==>
      ConnectDefined(cl, attempts[0]) && StartDefined(Connect(cl, attempts[0]).client, attempts[1..])
  }

  /** `start`, over finitely many attempts: connect, ignore the outcome whatever it is, wait
      the reconnect delay, and go again. */
  function Start(cl: Client, attempts: seq<Attempt>): (r: Run)
    requires StartDefined(cl, attempts)
    ensures r.client.site == cl.site && r.client.handler == cl.handler && r.client.reconnectTime == cl.reconnectTime
    ensures Count(r.steps, Sleep(cl.reconnectTime)) == |attempts|
    ensures Coherent(cl.cache) ==> Coherent(r.client.cache)
    decreases |attempts|
  {
    if |attempts| == 0 then Run(cl, [])
    else
      var o := Connect(cl, attempts[0]);
      var rest := Start(o.client, attempts[1..]);
      ConnectNeverSleeps(cl, attempts[0]);
      CountAbsent(o.steps, Sleep(cl.reconnectTime));
      CountAppend(o.steps, [Sleep(cl.reconnectTime)], Sleep(cl.reconnectTime));
      CountAppend(o.steps + [Sleep(cl.reconnectTime)], rest.steps, Sleep(cl.reconnectTime));
      Run(rest.client, o.steps + [Sleep(cl.reconnectTime)] + rest.steps)
  }

  /** A site whose scheme has no websocket counterpart is retried forever: every attempt
      fails before dialling, so the client only ever sleeps and is never changed. */
  lemma {:induction false} StartRetriesBadScheme(cl: Client, attempts: seq<Attempt>)
    requires WsScheme(cl.site.scheme).None?
    ensures StartDefined(cl, attempts)
    ensures Start(cl, attempts) == Run(cl, seq(|attempts|, _ => Sleep(cl.reconnectTime)))
    decreases |attempts|
  {
    if |attempts| > 0 {
      StartRetriesBadScheme(cl, attempts[1..]);
      assert [Sleep(cl.reconnectTime)] + seq(|attempts| - 1, _ => Sleep(cl.reconnectTime))
          == seq(|attempts|, _ => Sleep(cl.reconnectTime));
    }
  }

  /** With a usable scheme, every attempt dials exactly once, whatever the previous attempts
      returned. */
  lemma {:induction false} StartDialsEveryAttempt(cl: Client, attempts: seq<Attempt>)
    requires StartDefined(cl, attempts)
    requires WsScheme(cl.site.scheme).Some?
    ensures Count(Start(cl, attempts).steps, Dial(WsScheme(cl.site.scheme).value)) == |attempts|
    decreases |attempts|
  {
    if |attempts| > 0 {
      var d := Dial(WsScheme(cl.site.scheme).value);
      var o := Connect(cl, attempts[0]);
      ConnectClearsOnce(cl, attempts[0]);
      StartDialsEveryAttempt(o.client, attempts[1..]);
      var rest := Start(o.client, attempts[1..]);
      CountAppend(o.steps, [Sleep(cl.reconnectTime)], d);
      CountAppend(o.steps + [Sleep(cl.reconnectTime)], rest.steps, d);
    }
  }
}

=== FILE: deserializers.dfy ===
/** The two hand-written serde visitors of src/client.rs: the CSS-style hex colour of a
    palette entry and the "false or a string" field of a stats milestone. */
module Deserializers {
  import opened Basics
  import opened Json

  /** A palette colour, `[u8; 3]` in red, green, blue order. */
  datatype Rgb = Rgb(r: byte, g: byte, b: byte)

  /** The failure kinds of `u32::from_str_radix`. */
  datatype IntErrorKind = Empty | InvalidDigit | PosOverflow

  // ---------------------------------------------------------------------------------------
  // Hexadecimal digits

  /** What `char::to_digit(16)` accepts. */
  predicate IsHexDigit(c: char)
  {
    '0' <= c <= '9' || 'a' <= c <= 'f' || 'A' <= c <= 'F'
  }

  predicate AllHex(s: string)
  {
    forall i :: 0 <= i < |s| ==> IsHexDigit(s[i])
  }

  function DigitValue(c: char): (d: nat)
    requires IsHexDigit(c)
    ensures d < 16
  {
    if '0' <= c <= '9' then c as int - '0' as int
    else if 'a' <= c <= 'f' then c as int - 'a' as int + 10
    else c as int - 'A' as int + 10
  }

  /** A leading digit does not change whether the rest is all digits. */
  lemma AllHexTail(s: string)
    requires |s| > 0 && IsHexDigit(s[0])
    ensures AllHex(s) <==> AllHex(s[1..])
  {
    if AllHex(s[1..]) {
      forall i | 0 <= i < |s|
        ensures IsHexDigit(s[i])
      {
        if i > 0 {
          assert s[i] == s[1..][i - 1];
        }
      }
    }
  }

  /** Reference reading of a digit string, most significant digit first, continuing from
      the value `acc` of the digits read before it; no bound applies. */
  function HexValue(acc: nat, s: string): nat
    requires AllHex(s)
    decreases |s|
  {
    if |s| == 0 then acc
    else
      AllHexTail(s);
      HexValue(acc * 16 + DigitValue(s[0]), s[1..])
  }

  /** More digits never make the reading smaller. */
  lemma {:induction false} HexValueAtLeast(acc: nat, s: string)
    requires AllHex(s)
    ensures HexValue(acc, s) >= acc
    decreases |s|
  {
    if |s| > 0 {
      AllHexTail(s);
      HexValueAtLeast(acc * 16 + DigitValue(s[0]), s[1..]);
    }
  }

  /** The digit loop of `from_str_radix` with checked arithmetic: each step rejects a
      non-digit, then multiplies the accumulator by 16 and adds the digit, failing as soon
      as either operation leaves `u32`. It agrees with the unbounded reading exactly when
      that reading fits. */
  function CheckedDigits(acc: u32, s: string): (r: Result<u32, IntErrorKind>)
    ensures r.Ok? <==> AllHex(s) && HexValue(acc, s) < U32_LIMIT
    ensures r.Ok? ==> r.value == HexValue(acc, s)
    decreases |s|
  {
    if |s| == 0 then Ok(acc)
    else if !IsHexDigit(s[0]) then Err(InvalidDigit)
    else
      var mul := acc * 16;
      if mul >= U32_LIMIT then
        CheckedDigitsOverflow(acc, s);
        Err(PosOverflow)
      else if mul + DigitValue(s[0]) >= U32_LIMIT then
        CheckedDigitsOverflow(acc, s);
        Err(PosOverflow)
      else
        AllHexTail(s);
        CheckedDigits(mul + DigitValue(s[0]), s[1..])
  }

  /** Once the accumulator and the next digit overflow, the whole reading overflows. */
  lemma CheckedDigitsOverflow(acc: nat, s: string)
    requires |s| > 0 && IsHexDigit(s[0]) && acc * 16 + DigitValue(s[0]) >= U32_LIMIT
    ensures AllHex(s) ==> HexValue(acc, s) >= U32_LIMIT
  {
    AllHexTail(s);
    if AllHex(s) {
      HexValueAtLeast(acc * 16 + DigitValue(s[0]), s[1..]);
    }
  }

  /** The digits `from_str_radix` reads: a single leading `+` is allowed for `u32`. */
  function Unsigned(s: string): string
  {
    if |s| > 0 && s[0] == '+' then s[1..] else s
  }

  /** `u32::from_str_radix(s, 16)`. */
  function FromStrRadix16(s: string): (r: Result<u32, IntErrorKind>)
    ensures r.Ok? <==>
      |Unsigned(s)| > 0 && AllHex(Unsigned(s)) && HexValue(0, Unsigned(s)) < U32_LIMIT
    ensures r.Ok? ==> r.value == HexValue(0, Unsigned(s))
    ensures |s| == 0 ==> r == Err(Empty)
  {
    if |s| == 0 then Err(Empty)
    else if s[0] == '+' then
      if |s| == 1 then Err(InvalidDigit) else CheckedDigits(0, s[1..])
    else CheckedDigits(0, s)
  }

  // ---------------------------------------------------------------------------------------
  // Colour values

  /** `trim_start_matches('#')`: every leading `#` is removed. */
  function TrimHashes(s: string): (t: string)
    ensures |t| == 0 || t[0] != '#'
    ensures exists n :: 0 <= n <= |s| && s == Hashes(n) + t
    decreases |s|
  {
    if |s| > 0 && s[0] == '#' then
      var t := TrimHashes(s[1..]);
      var n :| 0 <= n <= |s[1..]| && s[1..] == Hashes(n) + t;
      assert s == Hashes(n + 1) + t;
      t
    else
      assert s == Hashes(0) + s;
      s
  }

  function Hashes(n: nat): (h: string)
    ensures |h| == n && forall i :: 0 <= i < n ==> h[i] == '#'
  {
    if n == 0 then "" else "#" + Hashes(n - 1)
  }

  /** The low three bytes of a `u32` in big-endian order; the high byte is dropped. */
  function LowBytes(v: u32): Rgb
  {
    Rgb((v / 0x1_0000) % 0x100, (v / 0x100) % 0x100, v % 0x100)
  }

  /** The value a colour stands for when read as a 24-bit number. */
  function RgbValue(c: Rgb): nat
  {
    c.r * 0x1_0000 + c.g * 0x100 + c.b
  }

  /** The `visit_str` of `deserialize_color_value`. */
  function ColorValue(s: string): (r: Result<Rgb, IntErrorKind>)
    ensures var d := Unsigned(TrimHashes(s));
      r.Ok? <==> |d| > 0 && AllHex(d) && HexValue(0, d) < U32_LIMIT
    ensures r.Ok? ==> RgbValue(r.value) == HexValue(0, Unsigned(TrimHashes(s))) % 0x100_0000
  {
    var v :- FromStrRadix16(TrimHashes(s));
    LowBytesValue(v);
    Ok(LowBytes(v))
  }

  lemma LowBytesValue(v: u32)
    ensures RgbValue(LowBytes(v)) == v % 0x100_0000
  {
    var b := v % 0x100;
    var v1 := v / 0x100;
    var g := v1 % 0x100;
    var v2 := v1 / 0x100;
    var r := v2 % 0x100;
    var v3 := v2 / 0x100;
    assert v == v2 * 0x1_0000 + (g * 0x100 + b);
    assert v / 0x1_0000 == v2;
    assert v == v3 * 0x100_0000 + (r * 0x1_0000 + g * 0x100 + b);
    assert v % 0x100_0000 == r * 0x1_0000 + g * 0x100 + b;
  }

  /** `deserialize_color_value`: only a JSON string is accepted, and a parse failure
      becomes a custom serde error. */
  function DeserializeColorValue(v: JValue): (r: Result<Rgb, DecodeError>)
    ensures r.Ok? <==> v.JString? && ColorValue(v.s).Ok?
    ensures r.Ok? ==> r.value == ColorValue(v.s).value
  {
    match v
    case JString(s) =>
      (match ColorValue(s)
       case Ok(c) => Ok(c)
       case Err(_) => Err(Custom("invalid hex colour")))
    case _ => Err(InvalidType)
  }

  /** Two lower-case hex digits for a byte. */
  function HexByte(b: byte): string
  {
    [HexChar(b / 16), HexChar(b % 16)]
  }

  function HexChar(d: nat): (c: char)
    requires d < 16
    ensures IsHexDigit(c) && DigitValue(c) == d
  {
    if d < 10 then ('0' as int + d) as char else ('a' as int + d - 10) as char
  }

  /** The six hex digits of a colour, red first. */
  function HexDigits(c: Rgb): string
  {
    HexByte(c.r) + HexByte(c.g) + HexByte(c.b)
  }

  /** The CSS spelling of a colour: `#` and six lower-case hex digits. */
  function CssHex(c: Rgb): string
  {
    "#" + HexDigits(c)
  }

  /** Reading the two digits of a byte shifts the accumulator by a byte. */
  lemma HexByteRead(acc: nat, b: byte, rest: string)
    requires AllHex(rest)
    ensures AllHex(HexByte(b) + rest)
    ensures HexValue(acc, HexByte(b) + rest) == HexValue(acc * 0x100 + b, rest)
  {
    var s := HexByte(b) + rest;
    forall i | 0 <= i < |s|
      ensures IsHexDigit(s[i])
    {
      if i >= 2 {
        assert s[i] == rest[i - 2];
      }
    }
    assert s[1..][1..] == rest;
    assert (acc * 16 + b / 16) * 16 + b % 16 == acc * 0x100 + b;
  }

  lemma HexDigitsValue(c: Rgb)
    ensures AllHex(HexDigits(c)) && HexValue(0, HexDigits(c)) == RgbValue(c)
  {
    var r, g, b := HexByte(c.r), HexByte(c.g), HexByte(c.b);
    assert b + "" == b;
    HexByteRead(c.r * 0x100 + c.g, c.b, "");
    HexByteRead(c.r, c.g, b);
    HexByteRead(0, c.r, g + b);
    assert HexDigits(c) == r + (g + b);
  }

  lemma LowBytesOfRgb(c: Rgb)
    ensures LowBytes(RgbValue(c)) == c
  {
    var v := RgbValue(c);
    assert v % 0x100 == c.b;
    assert v / 0x100 == c.r * 0x100 + c.g;
    assert v / 0x1_0000 == c.r;
  }

  lemma HashesShift(n: nat, d: string)
    ensures Hashes(n) + ("#" + d) == Hashes(n + 1) + d
  {
    var x, y := Hashes(n) + ("#" + d), Hashes(n + 1) + d;
    assert |x| == |y|;
    forall i | 0 <= i < |x|
      ensures x[i] == y[i]
    {
      if i <= n {
        assert x[i] == '#' && y[i] == '#';
      }
    }
  }

  /** Decoding inverts the CSS spelling, however many `#` precede it. */
  lemma ColorValueRoundTrip(c: Rgb, n: nat)
    ensures ColorValue(Hashes(n) + CssHex(c)) == Ok(c)
  {
    var d := HexDigits(c);
    HashesShift(n, d);
    HexDigitsValue(c);
    TrimHashesSkips(n + 1, d);
    assert Unsigned(d) == d;
    LowBytesOfRgb(c);
  }

  /** `from_str_radix` takes a leading `+`, so a colour spelled `#+rrggbb` decodes too;
      a lone `+` is not a number. */
  lemma ColorValuePlusSign(c: Rgb)
    ensures ColorValue("#+" + HexDigits(c)) == Ok(c)
    ensures ColorValue("#+").Err?
  {
    var d := HexDigits(c);
    assert "#+" + d == Hashes(1) + ("+" + d);
    TrimHashesSkips(1, "+" + d);
    assert Unsigned("+" + d) == d;
    HexDigitsValue(c);
    LowBytesOfRgb(c);
    assert "#+" == Hashes(1) + "+";
    TrimHashesSkips(1, "+");
  }

  /** Trimming removes exactly the leading `#` run when the rest starts with a digit. */
  lemma {:induction false} TrimHashesSkips(n: nat, d: string)
    requires |d| > 0 && d[0] != '#'
    ensures TrimHashes(Hashes(n) + d) == d
  {
    if n > 0 {
      assert (Hashes(n) + d)[1..] == Hashes(n - 1) + d;
      TrimHashesSkips(n - 1, d);
    } else {
      assert Hashes(n) + d == d;
    }
  }

  // ---------------------------------------------------------------------------------------
  // False or a string

  /** `deserialize_false_or_string`: `false` means no value, a string is kept, `true` and
      every other JSON type are errors. */
  function FalseOrString(v: JValue): (r: Result<Option<string>, DecodeError>)
    ensures r == Ok(None) <==> v == JBool(false)
    ensures (r.Ok? && r.value.Some?) <==> v.JString?
    ensures r.Ok? && r.value.Some? ==> r.value.value == v.s
    ensures v == JBool(true) ==> r == Err(Custom("Expected false"))
  {
    match v
    case JBool(b) => if !b then Ok(None) else Err(Custom("Expected false"))
    case JString(s) => Ok(Some(s))
    case _ => Err(InvalidType)
  }

  /** How such a field is written: `false` for no value, else the string. */
  function EncodeFalseOrString(o: Option<string>): JValue
  {
    match o
    case None => JBool(false)
    case Some(s) => JString(s)
  }

  lemma FalseOrStringRoundTrip(o: Option<string>)
    ensures FalseOrString(EncodeFalseOrString(o)) == Ok(o)
  {
  }
}

=== FILE: json.dfy ===
/** JSON values as serde hands them to a deserializer, and the few serde rules the client's
    decoders rely on: integer range checks for the primitive types and the "each declared
    field exactly once, unknown fields ignored" rule of derived struct decoding.

    Turning text into a `JValue` is serde_json's job and is not modelled; numbers are
    integers (a JSON number with a fraction or exponent is not representable here). Object
    members keep document order and duplicates, as serde's buffered content does. */
module Json {
  import opened Basics

  datatype JValue =
    | JNull
    | JBool(b: bool)
    | JNumber(n: int)
    | JString(s: string)
    | JArray(items: seq<JValue>)
    | JObject(members: seq<Member>)

  datatype Member = Member(key: string, value: JValue)

  /** Why serde rejected a value. Only success versus failure is modelled faithfully; which
      of several problems serde reports first is not. */
  datatype DecodeError =
    | Syntax
    | InvalidType
    | InvalidValue
    | InvalidLength
    | MissingField(name: string)
    | DuplicateField(name: string)
    | UnknownVariant(tag: string)
    | Custom(message: string)

  /** `usize` on a 64-bit target. */
  function DecodeUsize(v: JValue): Result<nat, DecodeError>
  {
    match v
    case JNumber(n) => if 0 <= n < USIZE_LIMIT then Ok(n) else Err(InvalidValue)
    case _ => Err(InvalidType)
  }

  /** `u8`. */
  function DecodeU8(v: JValue): Result<byte, DecodeError>
  {
    match v
    case JNumber(n) => if 0 <= n < BYTE_LIMIT then Ok(n) else Err(InvalidValue)
    case _ => Err(InvalidType)
  }

  /** `isize` on a 64-bit target. */
  function DecodeIsize(v: JValue): Result<int, DecodeError>
  {
    match v
    case JNumber(n) => if ISIZE_MIN <= n < ISIZE_LIMIT then Ok(n) else Err(InvalidValue)
    case _ => Err(InvalidType)
  }

  function DecodeString(v: JValue): Result<string, DecodeError>
  {
    match v
    case JString(s) => Ok(s)
    case _ => Err(InvalidType)
  }

  /** How many members carry the given key. */
  function Occurrences(ms: seq<Member>, key: string): nat
  {
    if |ms| == 0 then 0
    else (if ms[0].key == key then 1 else 0) + Occurrences(ms[1..], key)
  }

  /** The value of the first member with the given key. */
  function FirstValue(ms: seq<Member>, key: string): (v: JValue)
    requires Occurrences(ms, key) > 0
    ensures Member(key, v) in ms
  {
    if ms[0].key == key then ms[0].value else FirstValue(ms[1..], key)
  }

  /** A declared field of a derived struct: present exactly once, else missing or duplicate. */
  function Field(ms: seq<Member>, key: string): (r: Result<JValue, DecodeError>)
    ensures r.Ok? <==> Occurrences(ms, key) == 1
    ensures r.Ok? ==> Member(key, r.value) in ms
    ensures Occurrences(ms, key) == 0 ==> r == Err(MissingField(key))
    ensures Occurrences(ms, key) > 1 ==> r == Err(DuplicateField(key))
  {
    var n := Occurrences(ms, key);
    if n == 0 then Err(MissingField(key))
    else if n > 1 then Err(DuplicateField(key))
    else Ok(FirstValue(ms, key))
  }

  /** The members whose key differs from `key`, in order. */
  function Without(ms: seq<Member>, key: string): (rest: seq<Member>)
    ensures forall m :: m in rest <==> m in ms && m.key != key
  {
    if |ms| == 0 then []
    else if ms[0].key == key then Without(ms[1..], key)
    else [ms[0]] + Without(ms[1..], key)
  }

  /** A key carried by exactly one member occurs once. */
  lemma {:induction false} OccursOnce(ms: seq<Member>, i: nat, key: string)
    requires i < |ms| && ms[i].key == key
    requires forall j :: 0 <= j < |ms| && j != i ==> ms[j].key != key
    ensures Occurrences(ms, key) == 1
  {
    if i == 0 {
      OccursNever(ms[1..], key);
    } else {
      OccursOnce(ms[1..], i - 1, key);
    }
  }

  lemma {:induction false} OccursNever(ms: seq<Member>, key: string)
    requires forall j :: 0 <= j < |ms| ==> ms[j].key != key
    ensures Occurrences(ms, key) == 0
    ensures Without(ms, key) == ms
  {
    if |ms| > 0 {
      OccursNever(ms[1..], key);
      assert [ms[0]] + ms[1..] == ms;
    }
  }
}

=== FILE: messages.dfy ===
/** The inbound websocket protocol of src/messages.rs: the closed table of message tags, the
    `AcknowledgeType` names, the `Pixel` change record, and the hand-written fold that decodes
    a `UserUpdate` from a map of keys to values.

    A message is an internally tagged serde enum: the variant is named by the `type` member
    and the remaining members form the variant's body. The bodies of the pixel, ACK and
    chat_user_update variants are decoded here; the other bodies are not (see the README). */
module Messages {
  import opened Basics
  import opened Json

  /** One pixel change of a `pixel` message. Coordinates are `usize`, the colour a `u8`. */
  datatype Pixel = Pixel(x: nat, y: nat, color: byte)

  /** `AcknowledgeType`, whose variant names are spelled in upper case on the wire. */
  datatype AckType = Place | Undo

  /** `UserUpdate`: absent keys stay `None`; for the faction an explicit JSON null is
      `Some(None)`. The faction payload is kept as the raw JSON value. */
  datatype UserUpdate = UserUpdate(nameColor: Option<int>, displayedFaction: Option<Option<JValue>>)

  /** The variants of `Message`, in declaration order. */
  datatype MessageKind =
    | PixelKind | Users | Alert | Notification | ChatMessage | ChatUserUpdate | FactionUpdate
    | FactionClear | ChatHistory | MessageCooldown | ChatLookup | ChatBan | ChatBanState
    | ChatPurge | ChatPurgeSpecific | Acknowledge | AdminPlacementOverrides | CaptchaRequired
    | CaptchaStatus | CanUndo | Cooldown | ReceivedReport | Pixels | Userinfo | PixelCounts
    | Rename | RenameSuccess

  /** A decoded message. Variants whose bodies are not decoded by this model keep only
      their kind. */
  datatype Message =
    | PixelMessage(pixels: seq<Pixel>)
    | ChatUserUpdateMessage(who: string, updates: UserUpdate)
    | AcknowledgeMessage(ackFor: AckType, x: nat, y: nat)
    | OtherMessage(kind: MessageKind)

  function KindOf(m: Message): MessageKind
  {
    match m
    case PixelMessage(_) => PixelKind
    case ChatUserUpdateMessage(_, _) => ChatUserUpdate
    case AcknowledgeMessage(_, _, _) => Acknowledge
    case OtherMessage(k) => k
  }

  /** The wire name of each variant: its Rust name in snake_case, except the two variants
      that carry an explicit rename. */
  function TagOf(k: MessageKind): string
  {
    match k
    case PixelKind => "pixel"
    case Users => "users"
    case Alert => "alert"
    case Notification => "notification"
    case ChatMessage => "chat_message"
    case ChatUserUpdate => "chat_user_update"
    case FactionUpdate => "faction_update"
    case FactionClear => "faction_clear"
    case ChatHistory => "chat_history"
    case MessageCooldown => "message_cooldown"
    case ChatLookup => "chat_lookup"
    case ChatBan => "chat_ban"
    case ChatBanState => "chat_ban_state"
    case ChatPurge => "chat_purge"
    case ChatPurgeSpecific => "chat_purge_specific"
    case Acknowledge => "ACK"
    case AdminPlacementOverrides => "admin_placement_overrides"
    case CaptchaRequired => "captcha_required"
    case CaptchaStatus => "captcha_status"
    case CanUndo => "can_undo"
    case Cooldown => "cooldown"
    case ReceivedReport => "received_report"
    case Pixels => "pixels"
    case Userinfo => "userinfo"
    case PixelCounts => "pixelCounts"
    case Rename => "rename"
    case RenameSuccess => "rename_success"
  }

  /** The variant a tag selects. serde's generated identifier visitor compares the tag
      with every variant name; the same table is written here grouped by tag length, and
      `TagTable` shows it agrees with `TagOf` in both directions. */
  function KindOfTag(tag: string): Option<MessageKind>
  {
    if |tag| == 3 then
      if tag == "ACK" then Some(Acknowledge)
      else None
    else if |tag| == 5 then
      if tag == "pixel" then Some(PixelKind)
      else if tag == "users" then Some(Users)
      else if tag == "alert" then Some(Alert)
      else None
    else if |tag| == 6 then
      if tag == "pixels" then Some(Pixels)
      else if tag == "rename" then Some(Rename)
      else None
    else if |tag| == 8 then
      if tag == "chat_ban" then Some(ChatBan)
      else if tag == "can_undo" then Some(CanUndo)
      else if tag == "cooldown" then Some(Cooldown)
      else if tag == "userinfo" then Some(Userinfo)
      else None
    else if |tag| == 10 then
      if tag == "chat_purge" then Some(ChatPurge)
      else None
    else if |tag| == 11 then
      if tag == "chat_lookup" then Some(ChatLookup)
      else if tag == "pixelCounts" then Some(PixelCounts)
      else None
    else if |tag| == 12 then
      if tag == "notification" then Some(Notification)
      else if tag == "chat_message" then Some(ChatMessage)
      else if tag == "chat_history" then Some(ChatHistory)
      else None
    else if |tag| == 13 then
      if tag == "faction_clear" then Some(FactionClear)
      else None
    else if |tag| == 14 then
      if tag == "faction_update" then Some(FactionUpdate)
      else if tag == "chat_ban_state" then Some(ChatBanState)
      else if tag == "captcha_status" then Some(CaptchaStatus)
      else if tag == "rename_success" then Some(RenameSuccess)
      else None
    else if |tag| == 15 then
      if tag == "received_report" then Some(ReceivedReport)
      else None
    else if |tag| == 16 then
      if tag == "chat_user_update" then Some(ChatUserUpdate)
      else if tag == "message_cooldown" then Some(MessageCooldown)
      else if tag == "captcha_required" then Some(CaptchaRequired)
      else None
    else if |tag| == 19 then
      if tag == "chat_purge_specific" then Some(ChatPurgeSpecific)
      else None
    else if |tag| == 25 then
      if tag == "admin_placement_overrides" then Some(AdminPlacementOverrides)
      else None
    else None
  }

  /** Every variant is reached by its own tag. */
  lemma TagSelectsKind(k: MessageKind)
    ensures KindOfTag(TagOf(k)) == Some(k)
  {
    match k
    case PixelKind =>
    case Users =>
    case Alert =>
    case Notification =>
    case ChatMessage =>
    case ChatUserUpdate =>
    case FactionUpdate =>
    case FactionClear =>
    case ChatHistory =>
    case MessageCooldown =>
    case ChatLookup =>
    case ChatBan =>
    case ChatBanState =>
    case ChatPurge =>
    case ChatPurgeSpecific =>
    case Acknowledge =>
    case AdminPlacementOverrides =>
    case CaptchaRequired =>
    case CaptchaStatus =>
    case CanUndo =>
    case Cooldown =>
    case ReceivedReport =>
    case Pixels =>
    case Userinfo =>
    case PixelCounts =>
    case Rename =>
    case RenameSuccess =>
  }

  /** A tag that selects a variant is that variant's own tag. */
  lemma KindNamesTag(tag: string)
    ensures KindOfTag(tag).Some? ==> TagOf(KindOfTag(tag).value) == tag
  {
    if |tag| <= 11 {
      KindNamesShortTag(tag);
    } else if |tag| <= 14 {
      KindNamesMiddleTag(tag);
    } else {
      KindNamesLongTag(tag);
    }
  }

  /** `KindNamesTag` for tags of at most 11 characters. */
  lemma KindNamesShortTag(tag: string)
    requires |tag| <= 11
    ensures KindOfTag(tag).Some? ==> TagOf(KindOfTag(tag).value) == tag
  {
  }

  /** `KindNamesTag` for tags of 12 to 14 characters. */
  lemma KindNamesMiddleTag(tag: string)
    requires 12 <= |tag| <= 14
    ensures KindOfTag(tag).Some? ==> TagOf(KindOfTag(tag).value) == tag
  {
  }

  /** `KindNamesTag` for tags of 15 characters or more. */
  lemma KindNamesLongTag(tag: string)
    requires |tag| >= 15
    ensures KindOfTag(tag).Some? ==> TagOf(KindOfTag(tag).value) == tag
  {
  }

  /** The tag table is a bijection between the variants and the accepted tags: every
      variant is reached by its own name and by no other string. */
  lemma TagTable(tag: string, k: MessageKind)
    ensures KindOfTag(tag) == Some(k) <==> tag == TagOf(k)
  {
    KindNamesTag(tag);
    if tag == TagOf(k) {
      TagSelectsKind(k);
    }
  }

  /** The two renamed variants are not reachable through their snake_case spellings. */
  lemma RenamedTags()
    ensures KindOfTag("ACK") == Some(Acknowledge) && KindOfTag("acknowledge") == None
    ensures KindOfTag("pixelCounts") == Some(PixelCounts) && KindOfTag("pixel_counts") == None
  {
  }

  // ---------------------------------------------------------------------------------------
  // AcknowledgeType

  function AckTag(a: AckType): string
  {
    match a
    case Place => "PLACE"
    case Undo => "UNDO"
  }

  /** The variant a name selects. */
  function AckVariant(name: string): (r: Result<AckType, DecodeError>)
    ensures r.Ok? <==> name == "PLACE" || name == "UNDO"
    ensures r.Ok? ==> AckTag(r.value) == name
  {
    if name == "PLACE" then Ok(Place)
    else if name == "UNDO" then Ok(Undo)
    else Err(UnknownVariant(name))
  }

  /** A unit variant inside a buffered message body: either the bare name, or a map with
      the name as its single key and a null payload. */
  function DecodeAckType(v: JValue): (r: Result<AckType, DecodeError>)
    ensures r.Ok? <==>
              v == JString("PLACE") || v == JString("UNDO") ||
              v == JObject([Member("PLACE", JNull)]) || v == JObject([Member("UNDO", JNull)])
    ensures r.Ok? ==> v == JString(AckTag(r.value)) || v == JObject([Member(AckTag(r.value), JNull)])
  {
    match v
    case JString(s) => AckVariant(s)
    case JObject(ms) =>
      if |ms| != 1 then Err(InvalidValue)
      else
        assert ms == [Member(ms[0].key, ms[0].value)];
        var a :- AckVariant(ms[0].key);
        if ms[0].value.JNull? then Ok(a) else Err(InvalidType)
    case _ => Err(InvalidType)
  }

  /** Both spellings of each acknowledgement type decode to it, and a map with any other
      number of entries is rejected. */
  lemma AckTypeSpellings(a: AckType, ms: seq<Member>)
    requires |ms| != 1
    ensures DecodeAckType(JString(AckTag(a))) == Ok(a)
    ensures DecodeAckType(JObject([Member(AckTag(a), JNull)])) == Ok(a)
    ensures DecodeAckType(JObject(ms)).Err?
  {
  }

  // ---------------------------------------------------------------------------------------
  // Pixel

  /** A derived struct decodes from an object (each field exactly once, other members
      ignored) or from an array holding the fields in declaration order. */
  function DecodePixel(v: JValue): (r: Result<Pixel, DecodeError>)
    ensures r.Ok? ==> r.value.x < USIZE_LIMIT && r.value.y < USIZE_LIMIT
    ensures r.Ok? ==> v.JObject? || (v.JArray? && |v.items| == 3)
    ensures r.Ok? && v.JObject? ==>
              Occurrences(v.members, "x") == 1 && Occurrences(v.members, "y") == 1 &&
              Occurrences(v.members, "color") == 1 &&
              Member("x", JNumber(r.value.x)) in v.members && Member("y", JNumber(r.value.y)) in v.members &&
              Member("color", JNumber(r.value.color)) in v.members
    ensures v.JArray? && |v.items| != 3 ==> r == Err(InvalidLength)
  {
    match v
    case JObject(ms) =>
      var x :- Field(ms, "x");
      var x :- DecodeUsize(x);
      var y :- Field(ms, "y");
      var y :- DecodeUsize(y);
      var c :- Field(ms, "color");
      var c :- DecodeU8(c);
      Ok(Pixel(x, y, c))
    case JArray(items) =>
      if |items| != 3 then Err(InvalidLength)
      else
        var x :- DecodeUsize(items[0]);
        var y :- DecodeUsize(items[1]);
        var c :- DecodeU8(items[2]);
        Ok(Pixel(x, y, c))
    case _ => Err(InvalidType)
  }

  /** How a server writes a pixel: an object with its three fields. */
  function EncodePixel(p: Pixel): JValue
  {
    JObject([Member("x", JNumber(p.x)), Member("y", JNumber(p.y)), Member("color", JNumber(p.color))])
  }

  /** Both wire forms of a pixel decode back to it, given `usize` coordinates. */
  lemma DecodePixelRoundTrip(p: Pixel)
    requires p.x < USIZE_LIMIT && p.y < USIZE_LIMIT
    ensures DecodePixel(EncodePixel(p)) == Ok(p)
    ensures DecodePixel(JArray([JNumber(p.x), JNumber(p.y), JNumber(p.color)])) == Ok(p)
  {
    var ms := EncodePixel(p).members;
    OccursOnce(ms, 0, "x");
    OccursOnce(ms, 1, "y");
    OccursOnce(ms, 2, "color");
  }

  /** `Vec<Pixel>`: every element must decode, and the order is kept. */
  function DecodePixels(items: seq<JValue>): (r: Result<seq<Pixel>, DecodeError>)
    ensures r.Ok? <==> forall i :: 0 <= i < |items| ==> DecodePixel(items[i]).Ok?
    ensures r.Ok? ==> |r.value| == |items|
    ensures r.Ok? ==> forall i :: 0 <= i < |items| ==> r.value[i] == DecodePixel(items[i]).value
  {
    if |items| == 0 then Ok([])
    else
      var p :- DecodePixel(items[0]);
      var ps :- DecodePixels(items[1..]);
      Ok([p] + ps)
  }

  // ---------------------------------------------------------------------------------------
  // UserUpdate

  const NoUpdate: UserUpdate := UserUpdate(None, None)

  const NameColorKey: string := "NameColor"
  const DisplayedFactionKey: string := "DisplayedFaction"

  /** `Option<UserFaction>`: null is `None`; a struct may come as an object or an array.
      The faction's own fields are not checked by this model. */
  function DecodeFaction(v: JValue): Result<Option<JValue>, DecodeError>
  {
    match v
    case JNull => Ok(None)
    case JObject(_) => Ok(Some(v))
    case JArray(_) => Ok(Some(v))
    case _ => Err(InvalidType)
  }

  /** The loop of `MapPropVisitor::visit_map`: visit the members in order, overwrite the
      field a known key names, skip any other key, and stop at the first value that does
      not decode. */
  function FoldUpdate(u: UserUpdate, ms: seq<Member>): Result<UserUpdate, DecodeError>
    decreases |ms|
  {
    if |ms| == 0 then Ok(u)
    else if ms[0].key == NameColorKey then
      var c :- DecodeIsize(ms[0].value);
      FoldUpdate(u.(nameColor := Some(c)), ms[1..])
    else if ms[0].key == DisplayedFactionKey then
      var f :- DecodeFaction(ms[0].value);
      FoldUpdate(u.(displayedFaction := Some(f)), ms[1..])
    else FoldUpdate(u, ms[1..])
  }

  /** `UserUpdate` is decoded through `deserialize_map`, so only an object is accepted. */
  function DecodeUserUpdate(v: JValue): Result<UserUpdate, DecodeError>
  {
    match v
    case JObject(ms) => FoldUpdate(NoUpdate, ms)
    case _ => Err(InvalidType)
  }

  /** Reference definition: the value of the last member carrying `key`, if any. */
  function LastValue(ms: seq<Member>, key: string): Option<JValue>
  {
    if |ms| == 0 then None
    else if ms[|ms| - 1].key == key then Some(ms[|ms| - 1].value)
    else LastValue(ms[..|ms| - 1], key)
  }

  /** Every value stored under a known key decodes. */
  predicate KnownValuesDecode(ms: seq<Member>)
  {
    forall i :: 0 <= i < |ms| ==>
      (ms[i].key == NameColorKey ==> DecodeIsize(ms[i].value).Ok?) &&
      (ms[i].key == DisplayedFactionKey ==> DecodeFaction(ms[i].value).Ok?)
  }

  /** What a fold starting from `u` should produce: each field taken from the last member
      naming it, or left as in `u` when no member names it. */
  function Expected(u: UserUpdate, ms: seq<Member>): UserUpdate
    requires KnownValuesDecode(ms)
  {
    var color := LastValue(ms, NameColorKey);
    var faction := LastValue(ms, DisplayedFactionKey);
    LastValueIn(ms, NameColorKey);
    LastValueIn(ms, DisplayedFactionKey);
    UserUpdate(
      if color.Some? then Some(DecodeIsize(color.value).value) else u.nameColor,
      if faction.Some? then Some(DecodeFaction(faction.value).value) else u.displayedFaction)
  }

  lemma LastValueIn(ms: seq<Member>, key: string)
    ensures LastValue(ms, key).Some? ==> exists i :: 0 <= i < |ms| && ms[i] == Member(key, LastValue(ms, key).value)
  {
    if |ms| > 0 && ms[|ms| - 1].key != key {
      LastValueIn(ms[..|ms| - 1], key);
      if LastValue(ms, key).Some? {
        var i :| 0 <= i < |ms| - 1 && ms[..|ms| - 1][i] == Member(key, LastValue(ms, key).value);
        assert ms[i] == ms[..|ms| - 1][i];
      }
    }
  }

  /** Splitting off the first member: the last occurrence in the whole list is the last
      occurrence in the tail, or the first member when the tail has none. */
  lemma {:induction false} LastValueFront(ms: seq<Member>, key: string)
    requires |ms| > 0
    ensures LastValue(ms, key) ==
      (if LastValue(ms[1..], key).Some? then LastValue(ms[1..], key)
       else if ms[0].key == key then Some(ms[0].value) else None)
  {
    if |ms| > 1 {
      assert ms[1..][..|ms[1..]| - 1] == ms[..|ms| - 1][1..];
      if ms[|ms| - 1].key != key {
        LastValueFront(ms[..|ms| - 1], key);
      }
    }
  }

  /** The fold succeeds exactly when every value under a known key decodes, and then the
      last occurrence of each known key wins. */
  lemma {:induction false} FoldUpdateLastWins(u: UserUpdate, ms: seq<Member>)
    ensures FoldUpdate(u, ms).Ok? <==> KnownValuesDecode(ms)
    ensures FoldUpdate(u, ms).Ok? ==> FoldUpdate(u, ms).value == Expected(u, ms)
    decreases |ms|
  {
    if |ms| > 0 {
      var m := ms[0];
      var rest := ms[1..];
      assert forall i :: 1 <= i < |ms| ==> ms[i] == rest[i - 1];
      LastValueFront(ms, NameColorKey);
      LastValueFront(ms, DisplayedFactionKey);
      if m.key == NameColorKey {
        if DecodeIsize(m.value).Ok? {
          FoldUpdateLastWins(u.(nameColor := Some(DecodeIsize(m.value).value)), rest);
        }
      } else if m.key == DisplayedFactionKey {
        if DecodeFaction(m.value).Ok? {
          FoldUpdateLastWins(u.(displayedFaction := Some(DecodeFaction(m.value).value)), rest);
        }
      } else {
        FoldUpdateLastWins(u, rest);
      }
    }
  }

  /** Decoding starts from an update with both fields absent: an empty map leaves them
      absent, and a key that never occurs leaves its field absent. */
  lemma DecodeUserUpdateAbsent(ms: seq<Member>)
    ensures DecodeUserUpdate(JObject([])) == Ok(NoUpdate)
    ensures DecodeUserUpdate(JObject(ms)).Ok? && LastValue(ms, NameColorKey).None? ==>
      DecodeUserUpdate(JObject(ms)).value.nameColor.None?
    ensures DecodeUserUpdate(JObject(ms)).Ok? && LastValue(ms, DisplayedFactionKey).None? ==>
      DecodeUserUpdate(JObject(ms)).value.displayedFaction.None?
  {
    FoldUpdateLastWins(NoUpdate, ms);
  }

  /** An explicit null for the faction is kept apart from an absent key. */
  lemma DisplayedFactionNull(ms: seq<Member>)
    requires DecodeUserUpdate(JObject(ms)).Ok?
    ensures LastValue(ms, DisplayedFactionKey) == Some(JNull) <==>
      DecodeUserUpdate(JObject(ms)).value.displayedFaction == Some(None)
  {
    FoldUpdateLastWins(NoUpdate, ms);
    var last := LastValue(ms, DisplayedFactionKey);
    LastValueIn(ms, DisplayedFactionKey);
    if last.Some? {
      var i :| 0 <= i < |ms| && ms[i] == Member(DisplayedFactionKey, last.value);
      assert DecodeFaction(last.value).Ok?;
      assert DecodeUserUpdate(JObject(ms)).value.displayedFaction == Some(DecodeFaction(last.value).value);
    }
  }

  /** A member with any other key changes nothing, wherever it stands. */
  lemma {:induction false} UnknownKeyIgnored(u: UserUpdate, ms: seq<Member>, k: string, v: JValue)
    requires k != NameColorKey && k != DisplayedFactionKey
    ensures FoldUpdate(u, [Member(k, v)] + ms) == FoldUpdate(u, ms)
    ensures FoldUpdate(u, ms + [Member(k, v)]) == FoldUpdate(u, ms)
    decreases |ms|
  {
    assert ([Member(k, v)] + ms)[1..] == ms;
    if |ms| > 0 {
      assert (ms + [Member(k, v)])[1..] == ms[1..] + [Member(k, v)];
      var m := ms[0];
      if m.key == NameColorKey {
        if DecodeIsize(m.value).Ok? {
          UnknownKeyIgnored(u.(nameColor := Some(DecodeIsize(m.value).value)), ms[1..], k, v);
        }
      } else if m.key == DisplayedFactionKey {
        if DecodeFaction(m.value).Ok? {
          UnknownKeyIgnored(u.(displayedFaction := Some(DecodeFaction(m.value).value)), ms[1..], k, v);
        }
      } else {
        UnknownKeyIgnored(u, ms[1..], k, v);
      }
    }
  }

  // ---------------------------------------------------------------------------------------
  // Message

  /** The body of a variant: the members other than the tag. A decoded message carries
      what its body's fields hold: the pixels of the `pixels` array in order, the `who`
      string with the `updates` map, the acknowledged type and coordinates. */
  function DecodeBody(kind: MessageKind, body: seq<Member>): (r: Result<Message, DecodeError>)
    ensures r.Ok? ==> KindOf(r.value) == kind
    ensures kind == PixelKind ==>
      (r.Ok? <==> Field(body, "pixels").Ok? && Field(body, "pixels").value.JArray? &&
                  forall i :: 0 <= i < |Field(body, "pixels").value.items| ==>
                    DecodePixel(Field(body, "pixels").value.items[i]).Ok?)
    ensures r.Ok? && r.value.PixelMessage? ==>
      var items := Field(body, "pixels").value.items;
      |r.value.pixels| == |items| &&
      forall i :: 0 <= i < |items| ==> r.value.pixels[i] == DecodePixel(items[i]).value
    ensures r.Ok? && r.value.ChatUserUpdateMessage? ==>
      Field(body, "who") == Ok(JString(r.value.who)) && Field(body, "updates").Ok? &&
      DecodeUserUpdate(Field(body, "updates").value) == Ok(r.value.updates)
    ensures r.Ok? && r.value.AcknowledgeMessage? ==>
      Field(body, "ackFor").Ok? && DecodeAckType(Field(body, "ackFor").value) == Ok(r.value.ackFor) &&
      Field(body, "x") == Ok(JNumber(r.value.x)) && Field(body, "y") == Ok(JNumber(r.value.y))
  {
    match kind
    case PixelKind =>
      var pixels :- Field(body, "pixels");
      if !pixels.JArray? then Err(InvalidType)
      else
        var ps :- DecodePixels(pixels.items);
        Ok(PixelMessage(ps))
    case ChatUserUpdate =>
      var who :- Field(body, "who");
      var who :- DecodeString(who);
      var updates :- Field(body, "updates");
      var updates :- DecodeUserUpdate(updates);
      Ok(ChatUserUpdateMessage(who, updates))
    case Acknowledge =>
      var ackFor :- Field(body, "ackFor");
      var ackFor :- DecodeAckType(ackFor);
      var x :- Field(body, "x");
      var x :- DecodeUsize(x);
      var y :- Field(body, "y");
      var y :- DecodeUsize(y);
      Ok(AcknowledgeMessage(ackFor, x, y))
    case _ => Ok(OtherMessage(kind))
  }

  /** `Message` as an internally tagged enum: an object with exactly one `type` member whose
      string value is in the tag table; the rest of the object is the variant's body. */
  function DecodeMessage(j: JValue): Result<Message, DecodeError>
  {
    match j
    case JObject(ms) =>
      var tag :- Field(ms, "type");
      var tag :- DecodeString(tag);
      var kind := KindOfTag(tag);
      if kind.None? then Err(UnknownVariant(tag))
      else DecodeBody(kind.value, Without(ms, "type"))
    case _ => Err(InvalidType)
  }

  /** An acknowledgement as the server sends it decodes to the acknowledgement it
      describes. */
  lemma AckMessageRoundTrip(a: AckType, x: nat, y: nat)
    requires x < USIZE_LIMIT && y < USIZE_LIMIT
    ensures DecodeMessage(JObject([Member("type", JString("ACK")), Member("ackFor", JString(AckTag(a))),
                                   Member("x", JNumber(x)), Member("y", JNumber(y))]))
            == Ok(AcknowledgeMessage(a, x, y))
  {
    var body := [Member("ackFor", JString(AckTag(a))), Member("x", JNumber(x)), Member("y", JNumber(y))];
    var ms := [Member("type", JString("ACK"))] + body;
    assert [Member("type", JString("ACK")), Member("ackFor", JString(AckTag(a))),
            Member("x", JNumber(x)), Member("y", JNumber(y))] == ms;
    OccursOnce(ms, 0, "type");
    assert Field(ms, "type") == Ok(JString("ACK"));
    OccursNever(body, "type");
    assert ms[1..] == body;
    assert Without(ms, "type") == body;
    RenamedTags();
    AckBodyDecodes(a, x, y, body);
    DecodeMessageOf(ms, "ACK", Acknowledge);
  }

  /** The `pixels` array the server sends for a list of pixels. */
  function EncodePixels(ps: seq<Pixel>): (items: seq<JValue>)
    ensures |items| == |ps|
  {
    seq(|ps|, i requires 0 <= i < |ps| => EncodePixel(ps[i]))
  }

  /** A `pixel` message as the server sends it decodes to exactly its pixels, in order. */
  lemma PixelMessageRoundTrip(ps: seq<Pixel>)
    requires forall i :: 0 <= i < |ps| ==> ps[i].x < USIZE_LIMIT && ps[i].y < USIZE_LIMIT
    ensures DecodeMessage(JObject([Member("type", JString("pixel")), Member("pixels", JArray(EncodePixels(ps)))]))
            == Ok(PixelMessage(ps))
  {
    var body := [Member("pixels", JArray(EncodePixels(ps)))];
    var ms := [Member("type", JString("pixel"))] + body;
    assert [Member("type", JString("pixel")), Member("pixels", JArray(EncodePixels(ps)))] == ms;
    OccursOnce(ms, 0, "type");
    OccursNever(body, "type");
    assert ms[1..] == body;
    assert Without(ms, "type") == body;
    OccursOnce(body, 0, "pixels");
    forall i | 0 <= i < |ps|
      ensures DecodePixel(EncodePixels(ps)[i]) == Ok(ps[i])
    {
      DecodePixelRoundTrip(ps[i]);
    }
    var r := DecodePixels(EncodePixels(ps));
    assert r.Ok?;
    assert r.value == ps;
    DecodeMessageOf(ms, "pixel", PixelKind);
  }

  /** A `chat_user_update` message decodes to its sender and to whatever the `updates` map
      decodes to, failing exactly when that map fails. */
  lemma ChatUserUpdateMessageOf(who: string, updates: JValue)
    ensures DecodeMessage(JObject([Member("type", JString("chat_user_update")),
                                   Member("who", JString(who)), Member("updates", updates)]))
            == match DecodeUserUpdate(updates)
               case Ok(u) => Ok(ChatUserUpdateMessage(who, u))
               case Err(e) => Err(e)
  {
    var body := [Member("who", JString(who)), Member("updates", updates)];
    var ms := [Member("type", JString("chat_user_update"))] + body;
    assert [Member("type", JString("chat_user_update")), Member("who", JString(who)),
            Member("updates", updates)] == ms;
    OccursOnce(ms, 0, "type");
    OccursNever(body, "type");
    assert ms[1..] == body;
    assert Without(ms, "type") == body;
    ChatBodyDecodes(who, updates, body);
    DecodeMessageOf(ms, "chat_user_update", ChatUserUpdate);
  }

  lemma ChatBodyDecodes(who: string, updates: JValue, body: seq<Member>)
    requires body == [Member("who", JString(who)), Member("updates", updates)]
    ensures DecodeBody(ChatUserUpdate, body) ==
              match DecodeUserUpdate(updates)
              case Ok(u) => Ok(ChatUserUpdateMessage(who, u))
              case Err(e) => Err(e)
  {
    OccursOnce(body, 0, "who");
    OccursOnce(body, 1, "updates");
  }

  /** Decoding a message whose tag is known: the body decides the rest. */
  lemma DecodeMessageOf(ms: seq<Member>, tag: string, kind: MessageKind)
    requires Field(ms, "type") == Ok(JString(tag)) && KindOfTag(tag) == Some(kind)
    ensures DecodeMessage(JObject(ms)) == DecodeBody(kind, Without(ms, "type"))
  {
  }

  lemma AckBodyDecodes(a: AckType, x: nat, y: nat, body: seq<Member>)
    requires x < USIZE_LIMIT && y < USIZE_LIMIT
    requires body == [Member("ackFor", JString(AckTag(a))), Member("x", JNumber(x)), Member("y", JNumber(y))]
    ensures DecodeBody(Acknowledge, body) == Ok(AcknowledgeMessage(a, x, y))
  {
    OccursOnce(body, 0, "ackFor");
    OccursOnce(body, 1, "x");
    OccursOnce(body, 2, "y");
  }

  /** A message decodes only from an object carrying exactly one `type` member, and that
      member names the decoded variant; a tag outside the table is always rejected. */
  lemma DecodeMessageTag(j: JValue)
    ensures DecodeMessage(j).Ok? ==>
      j.JObject? && Occurrences(j.members, "type") == 1 &&
      Member("type", JString(TagOf(KindOf(DecodeMessage(j).value)))) in j.members
    ensures (j.JObject? && Field(j.members, "type").Ok? && Field(j.members, "type").value.JString? &&
             KindOfTag(Field(j.members, "type").value.s).None?) ==> DecodeMessage(j).Err?
  {
    if DecodeMessage(j).Ok? {
      var tag := Field(j.members, "type").value.s;
      TagTable(tag, KindOf(DecodeMessage(j).value));
    }
  }
}

=== FILE: timestamps.dfy ===
/** Reconstruction of per-pixel placement times (`timestamps` in src/client.rs).

    The server does not publish placement times. The client derives them from two buffers:
    the heatmap, which says how many seconds ago a pixel was last placed, and the virginmap,
    which is non-zero for pixels nobody has placed on. Times are whole seconds since the
    canvas start, which the client estimates once, on first use, as `now` minus one more
    than the heatmap cooldown; 0 is reserved for "never placed". */
module Timestamps {
  import opened Basics
  import opened Cache

  /** The seconds since `epoch` at which a pixel was last placed, or 0 for a virgin pixel. */
  function PixelTime(heat: byte, virgin: byte, now: int, epoch: int): int
  {
    if virgin != 0 then 0 else (now - heat) - epoch
  }

  /** The source unwraps the time since the epoch (it panics when the placement would
      precede the epoch) and narrows it to `u32` (it panics on a canvas over 136 years
      old). Only non-virgin pixels are converted. */
  predicate PixelRepresentable(heat: byte, virgin: byte, now: int, epoch: int)
  {
    virgin != 0 || 0 <= (now - heat) - epoch < U32_LIMIT
  }

  predicate AllRepresentable(heat: seq<byte>, virgin: seq<byte>, now: int, epoch: int)
  {
    forall i :: 0 <= i < |heat| && i < |virgin| ==> PixelRepresentable(heat[i], virgin[i], now, epoch)
  }

  /** Zip the heatmap with the virginmap; the shorter one bounds the result. */
  function Reconstruct(heat: seq<byte>, virgin: seq<byte>, now: int, epoch: int): (r: seq<u32>)
    requires AllRepresentable(heat, virgin, now, epoch)
    ensures |r| == Min(|heat|, |virgin|)
    ensures forall i :: 0 <= i < |r| && virgin[i] != 0 ==> r[i] == 0
    ensures forall i :: 0 <= i < |r| && virgin[i] == 0 ==> r[i] + epoch == now - heat[i]
  {
    if |heat| == 0 || |virgin| == 0 then []
    else
      var t := PixelTime(heat[0], virgin[0], now, epoch);
      assert PixelRepresentable(heat[0], virgin[0], now, epoch);
      [t] + Reconstruct(heat[1..], virgin[1..], now, epoch)
  }

  /** The canvas start the client infers when none is recorded: `now` less the heatmap
      cooldown less one second, so the oldest pixel the heatmap still knows about gets
      time 1 rather than the virgin sentinel 0. */
  function InferredStart(info: BoardInfo, now: int): int
  {
    now - (info.heatmapCooldown + 1)
  }

  /** The canvas start after the first call: the recorded one, or else the inferred one. */
  function Epoch(c: ClientCache, info: BoardInfo, now: int): int
  {
    if c.createdAt.Some? then c.createdAt.value else InferredStart(info, now)
  }

  /** What `timestamps` needs in order not to panic: when it gets as far as converting the
      two fetched buffers, every non-virgin pixel must be representable. */
  predicate TimestampsDefined(c: ClientCache, srv: Server, now: int)
  {
    c.timestamps.None? ==>
      var ia := Info(c, srv);
      var heat := FetchBuffer(srv, Heatmap);
      var virgin := FetchBuffer(srv, Virginmap);
      (ia.result.Ok? && heat.Ok? && virgin.Ok?) ==>
        AllRepresentable(heat.value, virgin.value, now, Epoch(ia.cache, ia.result.value, now))
  }

  /** `timestamps`: the cached buffer if there is one. Otherwise obtain the board info,
      record the canvas start if none is recorded yet, fetch the heatmap and the virginmap
      and store their reconstruction. When both fetches fail the heatmap's error is
      reported. */
  function TimestampsAccess(c: ClientCache, srv: Server, now: int): (a: Access<seq<u32>>)
    requires TimestampsDefined(c, srv, now)
    ensures c.timestamps.Some? ==> a == Access(c, Ok(c.timestamps.value), [])
    // nothing but the info, the start time and the timestamps themselves is touched
    ensures a.cache.colors == c.colors && a.cache.initial == c.initial && a.cache.mask == c.mask
    ensures c.timestamps.None? ==> a.cache.info == Info(c, srv).cache.info
    // a recorded start time is never replaced
    ensures c.createdAt.Some? ==> a.cache.createdAt == c.createdAt
    // the start time is recorded as soon as the info is known, even if a fetch then fails
    ensures c.timestamps.None? && Info(c, srv).result.Ok? && c.createdAt.None? ==>
              a.cache.createdAt == Some(InferredStart(Info(c, srv).result.value, now))
    ensures c.timestamps.None? && Info(c, srv).result.Err? ==>
              a == Access(c, Err(Info(c, srv).result.error), Info(c, srv).requests)
    ensures c.timestamps.None? && Info(c, srv).result.Ok? ==>
              a.requests == Info(c, srv).requests + [PathOf(Heatmap), PathOf(Virginmap)]
    // stored only when both fetches succeed, and then it is the reconstruction
    ensures a.result.Ok? ==> a.cache.timestamps == Some(a.result.value)
    ensures a.result.Ok? && c.timestamps.None? ==>
              a.cache.createdAt.Some? && FetchBuffer(srv, Heatmap).Ok? && FetchBuffer(srv, Virginmap).Ok? &&
              a.result.value == Reconstruct(FetchBuffer(srv, Heatmap).value,
                                            FetchBuffer(srv, Virginmap).value, now, a.cache.createdAt.value)
    ensures a.result.Err? ==> a.cache.timestamps == c.timestamps
    ensures c.timestamps.None? && Info(c, srv).result.Ok? ==>
              (a.result.Ok? <==> FetchBuffer(srv, Heatmap).Ok? && FetchBuffer(srv, Virginmap).Ok?)
  {
    if c.timestamps.Some? then Access(c, Ok(c.timestamps.value), [])
    else
      var ia := Info(c, srv);
      match ia.result
      case Err(e) => Access(c, Err(e), ia.requests)
      case Ok(info) =>
        var epoch := Epoch(ia.cache, info, now);
        var c1 := ia.cache.(createdAt := Some(epoch));
        var requests := ia.requests + [PathOf(Heatmap), PathOf(Virginmap)];
        match (FetchBuffer(srv, Heatmap), FetchBuffer(srv, Virginmap))
        case (Err(e), _) => Access(c1, Err(e), requests)
        case (_, Err(e)) => Access(c1, Err(e), requests)
        case (Ok(heat), Ok(virgin)) =>
          var data := Reconstruct(heat, virgin, now, epoch);
          Access(c1.(timestamps := Some(data)), Ok(data), requests)
  }

  /** With a freshly inferred start, a non-virgin pixel's time is one more than the cooldown
      less its heat, so every pixel the heatmap still remembers gets a time of at least 1
      and stays distinct from the virgin sentinel. */
  lemma FreshStartTimes(c: ClientCache, srv: Server, now: int, i: nat)
    requires TimestampsDefined(c, srv, now)
    requires c.timestamps.None? && c.createdAt.None?
    requires TimestampsAccess(c, srv, now).result.Ok?
    requires i < |TimestampsAccess(c, srv, now).result.value|
    ensures var heat := FetchBuffer(srv, Heatmap).value;
            var virgin := FetchBuffer(srv, Virginmap).value;
            var cooldown := Info(c, srv).result.value.heatmapCooldown;
            var t := TimestampsAccess(c, srv, now).result.value[i];
            virgin[i] == 0 ==> t == cooldown + 1 - heat[i] && (heat[i] <= cooldown ==> t >= 1)
  {
  }

  /** With a freshly inferred start every pixel is representable as long as the heatmap
      never exceeds the cooldown by more than one second and the cooldown stays below
      `u32` range, so the precondition of `timestamps` then holds. */
  lemma FreshStartDefined(c: ClientCache, srv: Server, now: int)
    requires c.timestamps.None? && c.createdAt.None?
    requires Info(c, srv).result.Ok?
    requires Info(c, srv).result.value.heatmapCooldown + 1 < U32_LIMIT
    requires FetchBuffer(srv, Heatmap).Ok?
    requires forall h :: h in FetchBuffer(srv, Heatmap).value ==> h <= Info(c, srv).result.value.heatmapCooldown + 1
    ensures TimestampsDefined(c, srv, now)
  {
    var heat := FetchBuffer(srv, Heatmap).value;
    var ia := Info(c, srv);
    var epoch := Epoch(ia.cache, ia.result.value, now);
    assert now - epoch == ia.result.value.heatmapCooldown + 1;
    if FetchBuffer(srv, Virginmap).Ok? {
      var virgin := FetchBuffer(srv, Virginmap).value;
      forall i | 0 <= i < |heat| && i < |virgin|
        ensures PixelRepresentable(heat[i], virgin[i], now, epoch)
      {
        assert heat[i] in heat;
      }
    }
  }

  /** A successful access leaves the timestamps cached, so the cache invariant holds
      afterwards whenever it held before. */
  lemma TimestampsKeepCoherent(c: ClientCache, srv: Server, now: int)
    requires TimestampsDefined(c, srv, now)
    requires Coherent(c)
    ensures Coherent(TimestampsAccess(c, srv, now).cache)
  {
  }

  /** Once computed, the timestamps are served from the cache: a second call requests
      nothing and answers the same buffer, whatever the clock or the server say. */
  lemma TimestampsStable(c: ClientCache, srv: Server, now: int, later: Server, after: int)
    requires TimestampsDefined(c, srv, now)
    requires TimestampsAccess(c, srv, now).result.Ok?
    ensures var a := TimestampsAccess(c, srv, now);
            TimestampsDefined(a.cache, later, after) &&
            TimestampsAccess(a.cache, later, after) == Access(a.cache, a.result, [])
  {
  }
}

=== FILE: updates.dfy ===
/** Keeping cached buffers current as pixel changes arrive (`update_buffers` in
    src/client.rs, applied to every pixel of a `pixel` message in order).

    A change lands at the row-major index `y * width + x` of whichever of the colour and
    timestamp buffers is cached; an absent buffer is left absent. The source panics instead
    of reporting an error when the board info cannot be obtained, when the index is out of
    range, when timestamps are cached without a canvas start, or when the time since the
    start does not fit in `u32`; those situations are preconditions here. */
module Updates {
  import opened Basics
  import opened Cache
  import opened Messages

  /** The cache after a change and the paths requested on the way. */
  datatype Applied = Applied(cache: ClientCache, requests: seq<string>)

  /** Row-major position of a pixel on a board of the given width. */
  function PixelIndex(p: Pixel, width: nat): nat
  {
    p.y * width + p.x
  }

  /** `after` is `before` with position `i` set to `v`: both absent, or equally long and
      equal everywhere except at `i`. */
  predicate WrittenAt<T(==)>(before: Option<seq<T>>, after: Option<seq<T>>, i: nat, v: T)
  {
    (before.Some? <==> after.Some?) &&
    (before.Some? ==>
      |after.value| == |before.value| && i < |after.value| && after.value[i] == v &&
      forall j :: 0 <= j < |after.value| && j != i ==> after.value[j] == before.value[j])
  }

  /** The seconds since the canvas start that a change received at `now` is stamped with. */
  function StampOf(c: ClientCache, now: int): int
    requires c.createdAt.Some?
  {
    now - c.createdAt.value
  }

  /** Where `update_buffers` does not panic: the info is at hand, the index is a `usize`
      within every cached buffer, and a cached timestamp buffer has a start time with the
      current stamp in `u32` range. */
  predicate UpdateDefined(c: ClientCache, srv: Server, p: Pixel, now: int)
  {
    var ia := Info(c, srv);
    ia.result.Ok? &&
    var i := PixelIndex(p, ia.result.value.width);
    i < USIZE_LIMIT &&
    (c.colors.Some? ==> i < |c.colors.value|) &&
    (c.timestamps.Some? ==>
      c.createdAt.Some? && 0 <= StampOf(c, now) < U32_LIMIT && i < |c.timestamps.value|)
  }

  /** `update_buffers`: write the colour into the cached colour buffer and the current
      stamp into the cached timestamp buffer, at the pixel's index; nothing else changes. */
  function UpdateBuffers(c: ClientCache, srv: Server, p: Pixel, now: int): (a: Applied)
    requires UpdateDefined(c, srv, p, now)
    ensures var ia := Info(c, srv);
            var i := PixelIndex(p, ia.result.value.width);
            a.requests == ia.requests && a.cache.info == ia.cache.info &&
            WrittenAt(c.colors, a.cache.colors, i, p.color) &&
            (c.timestamps.Some? ==> WrittenAt(c.timestamps, a.cache.timestamps, i, StampOf(c, now)))
    ensures c.timestamps.None? ==> a.cache.timestamps.None?
    ensures a.cache.initial == c.initial && a.cache.mask == c.mask && a.cache.createdAt == c.createdAt
  {
    var ia := Info(c, srv);
    var i := PixelIndex(p, ia.result.value.width);
    var colors := if c.colors.Some? then Some(c.colors.value[i := p.color]) else None;
    var timestamps :=
      if c.timestamps.Some? then Some(c.timestamps.value[i := StampOf(c, now) as u32]) else None;
    Applied(ia.cache.(colors := colors, timestamps := timestamps), ia.requests)
  }

  /** A single change on a cached 10-wide board of zeros: the pixel at column 2 of row 3
      lands at index 32 and nowhere else. */
  lemma UpdateTenByTen(c: ClientCache, srv: Server, now: int)
    requires c.info == Some(BoardInfo(10, 10, 0))
    requires c.colors == Some(seq(100, _ => 0)) && c.timestamps.None?
    ensures UpdateDefined(c, srv, Pixel(2, 3, 7), now)
    ensures var after := UpdateBuffers(c, srv, Pixel(2, 3, 7), now).cache.colors.value;
            after[32] == 7 && after[31] == 0 && after[33] == 0 && after[23] == 0
  {
  }

  /** Where a whole `pixel` message can be applied without a panic. The width is read from
      the info once it is at hand, and updates neither change it nor the buffer lengths,
      so the condition is stated once for every pixel. */
  predicate PixelsDefined(c: ClientCache, srv: Server, ps: seq<Pixel>, now: int)
  {
    |ps| > 0 ==>
      var ia := Info(c, srv);
      ia.result.Ok? &&
      forall p :: p in ps ==> UpdateDefined(ia.cache, srv, p, now)
  }

  /** Every pixel of a message, applied in list order. */
  function ApplyPixels(c: ClientCache, srv: Server, ps: seq<Pixel>, now: int): (a: Applied)
    requires PixelsDefined(c, srv, ps, now)
    ensures |ps| == 0 ==> a == Applied(c, [])
    ensures |ps| > 0 ==> a.requests == Info(c, srv).requests && a.cache.info == Info(c, srv).cache.info
    ensures a.cache.colors.Some? <==> c.colors.Some?
    ensures c.colors.Some? ==> |a.cache.colors.value| == |c.colors.value|
    ensures a.cache.timestamps.Some? <==> c.timestamps.Some?
    ensures c.timestamps.Some? ==> |a.cache.timestamps.value| == |c.timestamps.value|
    ensures a.cache.initial == c.initial && a.cache.mask == c.mask && a.cache.createdAt == c.createdAt
    decreases |ps|
  {
    if |ps| == 0 then Applied(c, [])
    else
      var front := ps[..|ps| - 1];
      assert forall p :: p in front ==> p in ps;
      var prev := ApplyPixels(c, srv, front, now);
      var last := ps[|ps| - 1];
      assert last in ps;
      var step := UpdateBuffers(prev.cache, srv, last, now);
      Applied(step.cache, prev.requests + step.requests)
  }

  /** The colour of the last pixel in `ps` that lands on index `i`, if any does. */
  function LastColorAt(ps: seq<Pixel>, width: nat, i: nat): Option<byte>
  {
    if |ps| == 0 then None
    else if PixelIndex(ps[|ps| - 1], width) == i then Some(ps[|ps| - 1].color)
    else LastColorAt(ps[..|ps| - 1], width, i)
  }

  /** Applying a message is "last write wins": each cached colour ends up as the colour of
      the last pixel of the message at its index, and is untouched when none lands there;
      each cached timestamp at an index some pixel lands on becomes the current stamp. */
  lemma {:induction false} ApplyPixelsLastWins(c: ClientCache, srv: Server, ps: seq<Pixel>, now: int, i: nat)
    requires PixelsDefined(c, srv, ps, now)
    requires |ps| > 0
    ensures var a := ApplyPixels(c, srv, ps, now);
            var w := Info(c, srv).result.value.width;
            (c.colors.Some? && i < |c.colors.value| ==>
              a.cache.colors.value[i] ==
                (if LastColorAt(ps, w, i).Some? then LastColorAt(ps, w, i).value else c.colors.value[i])) &&
            (c.timestamps.Some? && c.createdAt.Some? && i < |c.timestamps.value| ==>
              a.cache.timestamps.value[i] ==
                (if LastColorAt(ps, w, i).Some? then StampOf(c, now) else c.timestamps.value[i]))
    decreases |ps|
  {
    var front := ps[..|ps| - 1];
    var last := ps[|ps| - 1];
    assert forall p :: p in front ==> p in ps;
    assert last in ps;
    var ia := Info(c, srv);
    var w := ia.result.value.width;
    var prev := ApplyPixels(c, srv, front, now);
    if |front| > 0 {
      ApplyPixelsLastWins(c, srv, front, now, i);
    } else {
      assert prev.cache == c;
    }
    assert Info(prev.cache, srv).result.value.width == w;
    assert prev.cache.createdAt == c.createdAt;
  }

  /** Applying a message keeps the cache invariant. */
  lemma ApplyPixelsKeepsCoherent(c: ClientCache, srv: Server, ps: seq<Pixel>, now: int)
    requires PixelsDefined(c, srv, ps, now)
    requires Coherent(c)
    ensures Coherent(ApplyPixels(c, srv, ps, now).cache)
  {
  }
}
